=== FILE: README.md ===
# Conversation budgeting, summarization and access lists of the chat bot

This project models three parts of the bot's core.

- **The conversation** (`bot/modules/openai_conversation.py`). An
  `OpenAIConversation` holds a chat model (GPT-3.5 with a 4000-token prompt
  budget, GPT-4 with 8000), a system prompt and the chat history. Before
  each completion, `preprocess_prompt` fits the prompt into the model's
  budget. It first validates the prompt. Then, while the total is not
  strictly below the limit, it tries three strategies in order: upgrade the
  model, drop the oldest non-system message, or truncate the single user
  message by tokens. A truncation returns the tail it cut off. After a
  completion, `get_completion` records the user message and the reply.
  Module `Conversation` holds the pure ladder `Fit`, the state change
  `Complete`, and the class `OpenAIConversation`, whose methods are proved
  against them. The tokenizer is modelled in module `Tokens`.
- **The summarizer** (`bot/modules/summarizer.py`). It fills one of two
  prompt templates, extracts the useful part of the reply from a marker
  on, and merges it with a previous partial summary. When the prompt had
  to be cut, it recurses on the cut tail. Module `Summarization` holds the
  templates, the extraction, the merge, the chain `Summarize`, and the
  class `Summarizer`, whose `GenerateSummary` runs that chain on a real
  `OpenAIConversation`.
- **The access lists** (`bot/utilities/access.py`). Module `Access` holds
  the class `AccessManager`. It keeps two lists of user ids, and its add
  and remove operations are guarded by membership tests.

## How the code is followed

- **Recursive calls in `preprocess_prompt` are modelled by intent.** The
  recursive calls at lines 162-168 and 176-182 pass their arguments
  positionally in the wrong order, so every recursive path fails on the
  next token count. `Fit` models the evident intent: recurse with the
  upgrade switched off and the other two switches kept. `FitAsWritten`
  models the code as written (see Findings).
- **Only one chunk can ever be summarized, even with the conversation's
  defects read as intended.** Taken literally, `get_completion` already
  fails on every call, at line 211 and again at line 238 of
  `openai_conversation.py`. With `allow_gpt4` on, a prompt that overflows
  GPT-3.5 also fails in the recursive upgrade (lines 162-168). `Complete`
  models all three as intended (see the other notes here), and the
  summarizer's own defect remains on top of them. Lines 90-98 of
  `summarizer.py` recurse on the cut tail, and the comment at line 92 says
  the recursion is meant to generate more key points for the next part of
  the text. The code cannot do that. After a truncating
  call, the conversation history holds the whole uncut user message
  (line 243 of `openai_conversation.py`). The summarizer never allows
  message removal (line 78). So the next call's prompt has more than two
  messages and at least the same token total, and it always fails with
  "prompt too long". `SecondChunkRejected` and
  `SummarizerCompletesOneChunk` prove this. `SummaryStrategies`,
  `Summarize` and the class `Summarizer` keep the code's switches as
  written. `CorrectedSummaryStrategies` allows message removal, and
  `CorrectedSummarizerContinues` proves that the chain then goes on
  (see Findings).
- **`get_chat_history` is modelled by intent.** Line 211 adds a `Message`
  to a list, which Python rejects. `FullHistory` models the evident
  intent: the system message followed by the history.
- **The fits test is strict.** The prompt fits only when its total is
  below the limit (line 158). A truncated prompt may reach the limit
  exactly, and `FitWithinLimit` states `<=`, as the code allows.

## Model

| member | source | states |
|---|---|---|
| Tokens.TruncateToTokens | bot/modules/openai_conversation.py:189-194 | the cut-off part is a suffix of the user message, never longer than it |
| Tokens.Count | bot/modules/openai_conversation.py:115-122 | no contract of its own (the tokenizer is a parameter); see `TruncateFitsBudget` and `Conversation.TotalTokensAppend` |
| Tokens.TruncateIsLossless | bot/modules/openai_conversation.py:189-194 | with a tokenizer whose decoded token prefixes are text prefixes, kept part followed by cut part is exactly the original message |
| Tokens.TruncateFitsBudget | bot/modules/openai_conversation.py:190-193 | with a tokenizer whose truncations re-encode within their length, the kept part takes at most the remaining budget |
| Conversation.UpgradeRaisesLimit | bot/modules/openai_conversation.py:21-24 | the limits are 4000 and 8000 tokens, and GPT-4's is the largest |
| Conversation.TokenLimit | bot/modules/openai_conversation.py:21-24 | every model's budget lies between 4000 and 8000 tokens, and it is 8000 exactly for GPT-4 |
| Conversation.TotalTokens | bot/modules/openai_conversation.py:148-151 | no contract of its own; see `TotalTokensAppend` and `FitWithinLimit` |
| Conversation.TotalTokensAppend | bot/modules/openai_conversation.py:148-151 | the prompt total is additive over concatenation of message lists |
| Conversation.Fit | bot/modules/openai_conversation.py:127-202 | fitting leaves the model alone except for an allowed upgrade from GPT-3.5 to GPT-4 |
| Conversation.FitRejects | bot/modules/openai_conversation.py:137-157 | an empty prompt or one not starting with the system message, a prompt with only the system message, and a system message over the limit are rejected before any strategy, whatever the switches |
| Conversation.FitKeepsFittingPrompt | bot/modules/openai_conversation.py:158-202 | a valid prompt strictly under the limit comes back unchanged with an empty cut |
| Conversation.FitStrategyOrder | bot/modules/openai_conversation.py:158-200 | for an overflowing prompt the upgrade is tried first, then removal of the oldest non-system message, and with neither nor truncation applicable the result is "prompt too long" at the current limit |
| Conversation.FitUpgradeSuffices | bot/modules/openai_conversation.py:159-168 | a prompt that overflows GPT-3.5 but fits GPT-4 comes back whole, on GPT-4 |
| Conversation.FitSucceedsWithRemovalAndTruncation | bot/modules/openai_conversation.py:158-196 | with removal and truncation both allowed, a well-formed prompt whose system message fits the limit is always fitted |
| Conversation.FitShape | bot/modules/openai_conversation.py:158-196 | a fitted prompt keeps the system message and a contiguous run of the latest messages, all but the last unchanged, and the last message's role; the cut is a suffix of the last message |
| Conversation.TruncationKeepsShape | bot/modules/openai_conversation.py:184-196 | truncating the user message of a two-message prompt keeps the system message and the user role, and cuts a suffix of the user message |
| Conversation.RemovalKeepsShape | bot/modules/openai_conversation.py:170-172 | dropping the oldest non-system message preserves that shape relation to the original prompt |
| Conversation.FitIsLossless | bot/modules/openai_conversation.py:184-196 | with a prefix-decoding tokenizer, the fitted last message followed by the cut is the original last message |
| Conversation.FitWithinLimit | bot/modules/openai_conversation.py:158-196 | with a tokenizer that re-encodes truncations within budget, every fitted prompt's total is at most the final model's limit |
| Conversation.FitCutFacts | bot/modules/openai_conversation.py:184-202 | a non-empty cut comes only from truncation: truncation was allowed, the fitted prompt has two messages, the system message fits the final limit while it and the last message together reach it, and with the upgrade allowed the final model is GPT-4 |
| Conversation.FitAsWritten | bot/modules/openai_conversation.py:162-182 | as written, the function returns what `Fit` returns exactly when no recursive call is made, and fails in the tokenizer exactly when an overflowing prompt reaches the upgrade or the removal rung |
| Conversation.UpgradeCrashesAsWritten | bot/modules/openai_conversation.py:159-168 | for a prompt that overflows GPT-3.5 but fits GPT-4, the code as written fails after upgrading, while the intended ladder returns the prompt on GPT-4 |
| Conversation.FullHistory | bot/modules/openai_conversation.py:210-211 | the chat history is the system prompt as a system message followed by the recorded messages |
| Conversation.BasePrompt | bot/modules/openai_conversation.py:222-227 | the fitter's input has one entry per history message plus two: the (possibly replaced) system prompt first and the new user message last |
| Conversation.Complete | bot/modules/openai_conversation.py:213-246 | a given system prompt replaces the stored one; the model changes only by an allowed upgrade; a failed fit leaves the history alone; a success appends exactly the user message and the reply, returns the uncut user message as the prompt, and its cut is a suffix of it; `CompleteIsFit` ties the outcome to the fitter and the service |
| Conversation.CompleteIsFit | bot/modules/openai_conversation.py:229-246 | a completion fails exactly when fitting fails, with the fitter's error; otherwise the service is asked with the fitted prompt on the model the fitter leaves, and the response carries the fitter's cut, the reply and the history before the exchange; the conversation stays on the model the fitter leaves |
| Conversation.CompleteIsLossless | bot/modules/openai_conversation.py:229-242 | with a prefix-decoding tokenizer, the last message sent is the user's, and it followed by the response's cut is the whole user message |
| Conversation.ResentPromptTotal | bot/modules/openai_conversation.py:148-151 | a prompt holding the system message, the history, an earlier user message, its reply and a new message totals at least the system message plus the earlier user message |
| Conversation.CompleteAfterCutRejects | bot/modules/openai_conversation.py:213-246 | with removal off, after a completion whose prompt was cut, the next completion on the new state fails with "prompt too long" at the current limit |
| Conversation.CompleteSucceedsWithRemovalAndTruncation | bot/modules/openai_conversation.py:213-234 | with removal and truncation allowed, a completion whose system prompt fits GPT-3.5's limit always succeeds |
| Conversation.OpenAIConversation.constructor | bot/modules/openai_conversation.py:79-88 | the chosen model, the system prompt or "" when none is given, and an empty history |
| Conversation.OpenAIConversation.AddMessage | bot/modules/openai_conversation.py:91-92 | the message is appended to the history, and a non-system message keeps the history free of system messages |
| Conversation.OpenAIConversation.SetSystemPrompt | bot/modules/openai_conversation.py:207-208 | the system prompt is replaced and nothing else changes |
| Conversation.OpenAIConversation.GetChatHistory | bot/modules/openai_conversation.py:210-211 | returns `FullHistory` of the current state, with no system message after the first |
| Conversation.OpenAIConversation.PreprocessPrompt | bot/modules/openai_conversation.py:127-202 | the recursive method returns the result of `Fit` and leaves the model `Fit` leaves |
| Conversation.OpenAIConversation.GetCompletion | bot/modules/openai_conversation.py:213-246 | the response and the new state are those of `Complete` on the old state |
| Summarization.NatToDecimal | bot/modules/summarizer.py:46 | a number renders as a non-empty string of decimal digits |
| Summarization.IntToDecimal | bot/modules/summarizer.py:46 | no contract of its own; see `SignShows`, `IntToDecimalInjective` and `WordsLimitText` |
| Summarization.DecimalRoundTrip | bot/modules/summarizer.py:46 | reading the rendered digits back gives the number |
| Summarization.SignShows | bot/modules/summarizer.py:46 | a rendering starts with '-' exactly when the number is negative |
| Summarization.IntToDecimalInjective | bot/modules/summarizer.py:46 | different word caps render differently |
| Summarization.WordsLimitText | bot/modules/summarizer.py:46-47 | the word-cap text is empty exactly without a cap; otherwise it is " and less than ", the cap in decimal, and " words" |
| Summarization.WordsLimitTextOfFifty | bot/modules/summarizer.py:46-47 | a cap of 50 renders as " and less than 50 words" |
| Summarization.WordsLimitTextInjective | bot/modules/summarizer.py:46-47 | the cap can be recovered from its text |
| Summarization.InitialPromptShape | bot/modules/summarizer.py:11-18 | the initial prompt starts with its own opening line, not the continuation's; the word cap and the rest of the format sit right after that line; it ends with the text and a newline, and its length is the sum of its parts |
| Summarization.RecursivePromptShape | bot/modules/summarizer.py:20-28 | the continuation prompt starts with its own opening, not the initial one's; the previous summary sits right after it; the word cap and the rest of the format sit after the lead-in that follows the summary; it ends with the text and a newline, and its length is the sum of its parts |
| Summarization.InitialPrompt | bot/modules/summarizer.py:11-18 | no contract of its own; see `InitialPromptShape` |
| Summarization.RecursivePrompt | bot/modules/summarizer.py:20-28 | no contract of its own; see `RecursivePromptShape` |
| Summarization.UserMessage | bot/modules/summarizer.py:40-58 | no contract of its own; see `UserMessageShape`, `UserMessageWordsLimit` and `UserMessageRevealsWordsLimit` |
| Summarization.UserMessageShape | bot/modules/summarizer.py:40-58 | the initial template is chosen exactly when there is no previous summary, the continuation template exactly when there is one, which then sits right after the opening; either way the message ends with the text |
| Summarization.UserMessageWordsLimit | bot/modules/summarizer.py:40-58 | the word-cap text and the rest of the format sit right after the initial opening line, or after the continuation's lead-in, and the message's length is the sum of its parts |
| Summarization.UserMessageRevealsWordsLimit | bot/modules/summarizer.py:46-58 | two messages for the same text and previous summary are equal only when their word caps are |
| Summarization.Find | bot/modules/summarizer.py:61 | no contract of its own; see `FindIsFirstOccurrence` |
| Summarization.FindIsFirstOccurrence | bot/modules/summarizer.py:61 | the search returns the first index where the marker occurs, and -1 exactly when it does not occur |
| Summarization.ProcessSummary | bot/modules/summarizer.py:60-64 | no contract of its own; see `ProcessSummaryShape` |
| Summarization.ProcessSummaryShape | bot/modules/summarizer.py:60-64 | the extraction is a suffix of the reply; without the marker it is the whole reply; otherwise it starts with the marker and the dropped part holds no occurrence of it, so it is the reply from the first occurrence on |
| Summarization.ProcessSummaryDropsUnmarkedPrefix | bot/modules/summarizer.py:60-64 | text before the first marker is dropped: a reply that is a marker-free prefix followed by a part starting with the marker yields exactly that part |
| Summarization.ProcessSummaryIdempotent | bot/modules/summarizer.py:60-64 | extracting twice is extracting once |
| Summarization.ProcessSummaryKeepsMarkedReply | bot/modules/summarizer.py:60-64 | a reply that already starts with the marker is kept whole |
| Summarization.Merge | bot/modules/summarizer.py:83-88 | no contract of its own; see `MergeShape` |
| Summarization.MergeShape | bot/modules/summarizer.py:83-88 | an initial call (no or an empty previous summary) gives exactly the extraction from the first "Subject:", the whole reply without one; a continuation is the previous summary, a newline, and exactly the extraction from the reply's first "-", the whole reply without one |
| Summarization.MergeKeepsPrevious | bot/modules/summarizer.py:83-86 | a continuation starts with the non-empty previous summary and a newline |
| Summarization.EmptyPreviousSummaryQuirk | bot/modules/summarizer.py:48-88 | an empty previous summary selects the continuation template but is merged like an initial call |
| Summarization.SummaryStrategies | bot/modules/summarizer.py:74-81 | every summarizer completion upgrades only as configured, never removes messages, and may truncate |
| Summarization.Summarize | bot/modules/summarizer.py:66-99 | no contract of its own; see `SummarizeUnfold` and `SummaryExtendsPrevious` |
| Summarization.SummarizeUnfold | bot/modules/summarizer.py:73-99 | a failed completion ends the chain; a reply without a cut, or with recursion off, is merged and returned after one completion; otherwise the chain continues on the cut tail with the merged summary |
| Summarization.SummaryExtendsPrevious | bot/modules/summarizer.py:83-98 | a non-empty previous summary, followed by a newline, is a prefix of every summary the chain returns |
| Summarization.ConversationStepAppendsOneExchange | bot/modules/summarizer.py:74-81 | each summarizer completion sets the summarizer's system prompt, only appends to the history, and appends one exchange on success |
| Summarization.SecondChunkRejected | bot/modules/summarizer.py:90-98 | after a completion whose prompt was cut, the next summarizer completion on that conversation fails with "prompt too long" |
| Summarization.ConversationStepCutEndsChain | bot/modules/summarizer.py:90-98 | for the summarizer's own completion step, a cut is always followed by a failed completion |
| Summarization.SummarizeCompletesOneChunk | bot/modules/summarizer.py:90-98 | for such a step, a cut first reply with recursion on makes the run fail, and every successful run made exactly one completion |
| Summarization.SummarizeKeepsHistory | bot/modules/summarizer.py:66-99 | after a chain the system prompt is the summarizer's, and the old history is a prefix of the new one |
| Summarization.SummarizerCompletesOneChunk | bot/modules/summarizer.py:66-99 | on a conversation, every successful summary added exactly one exchange to the history |
| Summarization.CorrectedSummaryStrategies | bot/modules/summarizer.py:74-81 | as the code's strategies, but message removal is allowed; truncation is on and the upgrade follows the switch |
| Summarization.CorrectedStepNeverRejects | bot/modules/summarizer.py:74-81 | with those strategies and a system prompt within GPT-3.5's limit, no completion of the chain fails, whatever the history holds |
| Summarization.SummarizeWithoutRejection | bot/modules/summarizer.py:90-98 | a chain whose completions never fail ends with a summary or runs out of fuel |
| Summarization.CorrectedSummarizerContinues | bot/modules/summarizer.py:90-98 | with removal allowed, the completion after a first one succeeds, and the chain ends with a summary unless it runs out of fuel |
| Summarization.Summarizer.constructor | bot/modules/summarizer.py:30-38 | stores the conversation and the two switches |
| Summarization.Summarizer.Ask | bot/modules/summarizer.py:73-81 | one completion on the templated message with the summarizer's system prompt and strategies |
| Summarization.Summarizer.GenerateSummary | bot/modules/summarizer.py:66-99 | the recursive method returns the result of `Summarize` and leaves the conversation in the state `Summarize` describes |
| Access.Added | bot/utilities/access.py:27-34 | after adding, the id is present, the old list is a prefix, at most one entry was added, the members are the old ones plus the id, and a present id leaves the list unchanged |
| Access.FirstIndex | bot/utilities/access.py:39 | the index of the id's first occurrence |
| Access.RemoveFirst | bot/utilities/access.py:37-44 | removal leaves a list without the id unchanged, and otherwise shortens it by one |
| Access.RemoveFirstCount | bot/utilities/access.py:39 | removing a present id takes out exactly one copy of it and nothing else |
| Access.RemoveFirstAtIndex | bot/utilities/access.py:39 | removal at the first index holding the id keeps the entries before and after it, in order |
| Access.RemoveFirstAt | bot/utilities/access.py:39 | removal cuts out exactly the first occurrence, keeping the order of the rest |
| Access.AddedKeepsNoDuplicates | bot/utilities/access.py:28-29 | the membership guard keeps a list free of duplicates |
| Access.AddedIdempotent | bot/utilities/access.py:27-29 | adding the same id twice is adding it once |
| Access.RemoveFirstShrinks | bot/utilities/access.py:39 | removal adds no id |
| Access.RemoveFirstFromNoDuplicates | bot/utilities/access.py:37-40 | on a list without duplicates, removal takes the id out entirely and keeps the list without duplicates |
| Access.AddThenRemove | bot/utilities/access.py:27-40 | removing an id that was just added restores the list |
| Access.AccessManager.constructor | bot/utilities/access.py:10-13 | holds the two given lists |
| Access.AccessManager.IsAdmin | bot/utilities/access.py:18-19 | true exactly when some admin entry is the id |
| Access.AccessManager.IsWhitelisted | bot/utilities/access.py:21-22 | true exactly when some whitelist entry is the id |
| Access.AccessManager.IsAllowed | bot/utilities/access.py:24-25 | true exactly when the id is in either list |
| Access.AccessManager.AddAdmin | bot/utilities/access.py:27-30 | the admins become `Added` of the old admins, the id is an admin and allowed, no duplicates are introduced, and the whitelist is unchanged |
| Access.AccessManager.AddWhitelistedUser | bot/utilities/access.py:32-35 | the whitelist becomes `Added` of the old whitelist, the id is whitelisted and allowed, no duplicates are introduced, and the admins are unchanged |
| Access.AccessManager.RemoveAdmin | bot/utilities/access.py:37-40 | the admins become `RemoveFirst` of the old admins, the whitelist is unchanged, and from a list without duplicates the id is no longer an admin |
| Access.AccessManager.RemoveWhitelistedUser | bot/utilities/access.py:42-45 | the whitelist becomes `RemoveFirst` of the old whitelist, the admins are unchanged, and from a list without duplicates the id is no longer whitelisted |

## Left out

- The completion service call (lines 236-240 of `openai_conversation.py`) becomes the parameter `complete`, a function of the model, the fitted prompt and the temperature. Network errors, retries and the response's `created`, `finish_reason`, `model` and `usage` fields (`_compose_response`) are not modelled.
- Line 238 builds a set of dicts, which Python rejects because dicts are unhashable. The model sends the fitted prompt as a list, which is the evident intent.
- The tokenizer (tiktoken's `cl100k_base` encoding) is a parameter. The two properties the budget proofs need are predicates that those lemmas require; nothing about the real encoding is proved.
- The tokenizer argument of `preprocess_prompt` and its default lookup (`_get_tokenizer`) are dropped. The object's own tokenizer is always used.
- The temperature is an opaque `real` that is passed to the completion service unchanged; floating point is not modelled.
- The API key, logging, and the `Usage`, `Completion` and `ConversationStatus` records are left out; they have no effect on the modelled behaviour.
- `get_system_prompt` is a plain field read.
- Python's assertion failures and the `ValueError`s of `preprocess_prompt` are modelled as the constructors of `FitError`; the messages are kept only as the limit they mention.
- Summarization.Summarize: the recursion depth is bounded by a `fuel` parameter, and running out gives `OutOfFuel`. The code itself has no such bound. As written, a chain makes only one successful completion anyway (see above).
- Summarization.Summarizer.GenerateSummary: takes a ghost `step` naming the conversation's completion, and requires that it is that completion. It does not add behaviour.
- The class constants `GPT_35_LIMIT` and `GPT_4_LIMIT` of `summarizer.py` are never read by the code and are not modelled.
- The test suite's full expected messages are not restated as lemmas over the literal strings. The lemmas state the parts those examples check: the rendering of the cap 50 (`WordsLimitTextOfFifty`), which template is chosen and where the previous summary, the word cap and the text sit (`UserMessageShape`, `UserMessageWordsLimit`), and the dropping of text before the marker (`ProcessSummaryDropsUnmarkedPrefix`, `ProcessSummaryKeepsMarkedReply`).
- Default arguments are not modelled: every parameter is explicit. This covers the constructor's `model=GPT_3_5` and `system_prompt=None`, the `Summarizer`'s `allow_gpt4=False` and `allow_recursion=True`, `get_completion`'s defaults, and `generate_summary`'s `words_limit=None`, `temperature=0.7` and `previous_summary=None`.
- Aliasing is not modelled. The access lists and the conversation history are sequences held by value. A list passed to the `AccessManager` constructor and still held by the caller, or one list passed as both the admins and the whitelist, is not updated in place through the other reference.
- `AccessManager.from_toml` and `to_toml` (file I/O) are left out.
- `str(user_id)` is the identity, because user ids are modelled as strings.
- `list.remove` is modelled by the function `RemoveFirst`, and the lists are sequences that the methods reassign.

## Findings

| source | as written | input that shows it | evidently intended | confidence | as-written member | corrected member |
|---|---|---|---|---|---|---|
| bot/modules/openai_conversation.py:162-182 | the recursive calls pass the tokenizer, `False`, and the two flags positionally, so the tokenizer lands in `allow_model_upgrade` and a boolean lands in `tokenizer`; the next token count then calls `encode` on a boolean and fails | a GPT-3.5 conversation with a system and a user message totalling 4000 to 7999 tokens, with the upgrade allowed | recurse with the upgrade switched off, the same removal and truncation switches, and the same tokenizer | high, not executed | Conversation.FitAsWritten, Conversation.UpgradeCrashesAsWritten | Conversation.Fit, Conversation.FitUpgradeSuffices |
| bot/modules/summarizer.py:74-98 | with the conversation's defects at openai_conversation.py lines 162-168, 211 and 238 read as intended (as `Complete` does; taken literally, those fail first), every completion disallows message removal (line 78), while the conversation records the whole uncut user message (openai_conversation.py line 243), so the recursive call on the cut tail always fails with "prompt too long" | any text whose first prompt must be truncated, with recursion on | the chain goes on with the next part of the text (comment at line 92), for example by allowing message removal | medium, not executed | Summarization.SecondChunkRejected, Summarization.SummarizerCompletesOneChunk | Summarization.CorrectedSummaryStrategies, Summarization.CorrectedSummarizerContinues |

=== FILE: access.dfy ===
/** The bot's access list: two lists of user ids, admins and whitelisted
    users, with membership queries and guarded add and remove operations. */
module Access {

  /** No id occurs twice. */
  ghost predicate NoDuplicates(s: seq<string>)
  {
    forall i, j | 0 <= i < j < |s| :: s[i] != s[j]
  }

  /** The list after a guarded `append`: `x` is added at the end unless it
      is already there. */
  function Added(s: seq<string>, x: string): (r: seq<string>)
    ensures x in r
    ensures x in s ==> r == s
    ensures s <= r && |r| <= |s| + 1
    ensures forall y :: y in r <==> y in s || y == x
  {
    if x in s then s else s + [x]
  }

  /** The index of the first occurrence of `x`. */
  function FirstIndex(s: seq<string>, x: string): (i: nat)
    requires x in s
    ensures i < |s| && s[i] == x
    ensures forall j | 0 <= j < i :: s[j] != x
  {
    if s[0] == x then 0 else 1 + FirstIndex(s[1..], x)
  }

  /** Python's `list.remove` behind a membership guard: the first occurrence
      of `x` is dropped, and a list without `x` is left alone. */
  function RemoveFirst(s: seq<string>, x: string): (r: seq<string>)
    ensures x !in s ==> r == s
    ensures x in s ==> |r| == |s| - 1
  {
    if |s| == 0 then []
    else if s[0] == x then s[1..]
    else [s[0]] + RemoveFirst(s[1..], x)
  }

  /** Removal takes out exactly one copy of a present id and nothing else. */
  lemma {:induction false} RemoveFirstCount(s: seq<string>, x: string)
    requires x in s
    ensures multiset(RemoveFirst(s, x)) == multiset(s) - multiset{x}
  {
    assert s == [s[0]] + s[1..];
    if s[0] != x {
      RemoveFirstCount(s[1..], x);
    }
  }

  lemma RemoveFirstCons(s: seq<string>, x: string)
    requires |s| > 0 && s[0] != x
    ensures RemoveFirst(s, x) == [s[0]] + RemoveFirst(s[1..], x)
  {
  }

  /** Removal cuts out exactly the first occurrence: the entries before it
      and after it keep their order. */
  lemma {:induction false} RemoveFirstAtIndex(s: seq<string>, x: string, i: nat)
    requires i < |s| && s[i] == x && forall j | 0 <= j < i :: s[j] != x
    ensures RemoveFirst(s, x) == s[..i] + s[i + 1..]
    decreases i
  {
    if i > 0 {
      var t := s[1..];
      assert s[0] != x;
      forall j | 0 <= j < i - 1
        ensures t[j] != x
      {
        assert t[j] == s[j + 1];
      }
      RemoveFirstAtIndex(t, x, i - 1);
      calc {
        RemoveFirst(s, x);
        { RemoveFirstCons(s, x); }
        [s[0]] + RemoveFirst(t, x);
        [s[0]] + (t[..i - 1] + t[i..]);
        { assert s[..i] == [s[0]] + t[..i - 1] && s[i + 1..] == t[i..]; }
        s[..i] + s[i + 1..];
      }
    }
  }

  lemma RemoveFirstAt(s: seq<string>, x: string)
    requires x in s
    ensures RemoveFirst(s, x) == s[..FirstIndex(s, x)] + s[FirstIndex(s, x) + 1..]
  {
    RemoveFirstAtIndex(s, x, FirstIndex(s, x));
  }

  /** Adding to a list without duplicates keeps it without duplicates. */
  lemma AddedKeepsNoDuplicates(s: seq<string>, x: string)
    requires NoDuplicates(s)
    ensures NoDuplicates(Added(s, x))
  {
  }

  /** Adding twice is adding once. */
  lemma AddedIdempotent(s: seq<string>, x: string)
    ensures Added(Added(s, x), x) == Added(s, x)
  {
  }

  lemma TailNoDuplicates(s: seq<string>)
    requires |s| > 0 && NoDuplicates(s)
    ensures NoDuplicates(s[1..]) && s[0] !in s[1..]
  {
    forall i, j | 0 <= i < j < |s[1..]|
      ensures s[1..][i] != s[1..][j]
    {
      assert s[1..][i] == s[i + 1] && s[1..][j] == s[j + 1];
    }
  }

  lemma ConsNoDuplicates(a: string, t: seq<string>)
    requires a !in t && NoDuplicates(t)
    ensures NoDuplicates([a] + t)
  {
    var s := [a] + t;
    forall i, j | 0 <= i < j < |s|
      ensures s[i] != s[j]
    {
      assert s[j] == t[j - 1];
      if i > 0 {
        assert s[i] == t[i - 1];
      }
    }
  }

  /** Removal adds no id. */
  lemma {:induction false} RemoveFirstShrinks(s: seq<string>, x: string, y: string)
    ensures y in RemoveFirst(s, x) ==> y in s
  {
    if |s| > 0 && s[0] != x {
      RemoveFirstShrinks(s[1..], x, y);
    }
  }

  /** On a list without duplicates, removal takes the id out entirely and
      keeps the list without duplicates. */
  lemma {:induction false} RemoveFirstFromNoDuplicates(s: seq<string>, x: string)
    requires NoDuplicates(s)
    ensures x !in RemoveFirst(s, x)
    ensures NoDuplicates(RemoveFirst(s, x))
  {
    if |s| > 0 {
      TailNoDuplicates(s);
      if s[0] != x {
        var t := RemoveFirst(s[1..], x);
        RemoveFirstFromNoDuplicates(s[1..], x);
        RemoveFirstShrinks(s[1..], x, s[0]);
        ConsNoDuplicates(s[0], t);
        assert RemoveFirst(s, x) == [s[0]] + t;
      }
    }
  }

  /** Removing an id that was just added restores the list. */
  lemma AddThenRemove(s: seq<string>, x: string)
    requires x !in s
    ensures RemoveFirst(Added(s, x), x) == s
  {
    var t := s + [x];
    assert t[|s|] == x;
    assert FirstIndex(t, x) == |s|;
    RemoveFirstAt(t, x);
    assert t[..|s|] == s;
  }

  /** `AccessManager`: the two lists, changed in place. */
  class AccessManager {
    var admins: seq<string>
    var whitelistedUsers: seq<string>

    constructor (admins: seq<string>, whitelistedUsers: seq<string>)
      ensures this.admins == admins && this.whitelistedUsers == whitelistedUsers
    {
      this.admins := admins;
      this.whitelistedUsers := whitelistedUsers;
    }

    /** `user_id in self.admins`: some entry of the admin list is the id. */
    predicate IsAdmin(userId: string)
      reads this
      ensures IsAdmin(userId) <==> exists i :: 0 <= i < |admins| && admins[i] == userId
    {
      userId in admins
    }

    /** `user_id in self.whitelisted_users`. */
    predicate IsWhitelisted(userId: string)
      reads this
      ensures IsWhitelisted(userId) <==> exists i :: 0 <= i < |whitelistedUsers| && whitelistedUsers[i] == userId
    {
      userId in whitelistedUsers
    }

    /** Allowed: an admin or whitelisted, i.e. listed in either list. */
    function IsAllowed(userId: string): (b: bool)
      reads this
      ensures b <==> userId in admins + whitelistedUsers
    {
      IsAdmin(userId) || IsWhitelisted(userId)
    }

    /** `add_admin`: append the id unless it is already an admin. */
    method AddAdmin(userId: string)
      modifies this`admins
      ensures admins == Added(old(admins), userId)
      ensures IsAdmin(userId) && IsAllowed(userId)
      ensures NoDuplicates(old(admins)) ==> NoDuplicates(admins)
      ensures whitelistedUsers == old(whitelistedUsers)
    {
      if !IsAdmin(userId) {
        admins := admins + [userId];
      }
      if NoDuplicates(old(admins)) {
        AddedKeepsNoDuplicates(old(admins), userId);
      }
    }

    /** `add_whitelisted_user`: append the id unless it is already listed. */
    method AddWhitelistedUser(userId: string)
      modifies this`whitelistedUsers
      ensures whitelistedUsers == Added(old(whitelistedUsers), userId)
      ensures IsWhitelisted(userId) && IsAllowed(userId)
      ensures NoDuplicates(old(whitelistedUsers)) ==> NoDuplicates(whitelistedUsers)
      ensures admins == old(admins)
    {
      if !IsWhitelisted(userId) {
        whitelistedUsers := whitelistedUsers + [userId];
      }
      if NoDuplicates(old(whitelistedUsers)) {
        AddedKeepsNoDuplicates(old(whitelistedUsers), userId);
      }
    }

    /** `remove_admin`: drop the id's first occurrence if it is an admin. */
    method RemoveAdmin(userId: string)
      modifies this`admins
      ensures admins == RemoveFirst(old(admins), userId)
      ensures NoDuplicates(old(admins)) ==> !IsAdmin(userId) && NoDuplicates(admins)
      ensures whitelistedUsers == old(whitelistedUsers)
    {
      if IsAdmin(userId) {
        admins := RemoveFirst(admins, userId);
      }
      if NoDuplicates(old(admins)) {
        RemoveFirstFromNoDuplicates(old(admins), userId);
      }
    }

    /** `remove_whitelisted_user`: drop the id's first occurrence if listed. */
    method RemoveWhitelistedUser(userId: string)
      modifies this`whitelistedUsers
      ensures whitelistedUsers == RemoveFirst(old(whitelistedUsers), userId)
      ensures NoDuplicates(old(whitelistedUsers)) ==> !IsWhitelisted(userId) && NoDuplicates(whitelistedUsers)
      ensures admins == old(admins)
    {
      if IsWhitelisted(userId) {
        whitelistedUsers := RemoveFirst(whitelistedUsers, userId);
      }
      if NoDuplicates(old(whitelistedUsers)) {
        RemoveFirstFromNoDuplicates(old(whitelistedUsers), userId);
      }
    }
  }
}

=== FILE: conversation.dfy ===
/** The conversation budgeter of bot/modules/openai_conversation.py: the
    token-limit table, the prompt fitter `preprocess_prompt` (`Fit`), the
    state change of `get_completion` (`Complete`), and the class
    `OpenAIConversation` whose methods are proved against them. */
module Conversation {
  import opened Results
  import opened Tokens

  datatype ChatModel = GPT_3_5 | GPT_4

  /** `TOKEN_LIMITS`: the token budget of a whole prompt for each model. */
  function TokenLimit(m: ChatModel): (limit: nat)
    ensures 4000 <= limit <= 8000 && (limit == 8000 <==> m == GPT_4)
  {
    match m
    case GPT_3_5 => 4000
    case GPT_4 => 8000
  }

  lemma UpgradeRaisesLimit()
    ensures TokenLimit(GPT_3_5) == 4000 && TokenLimit(GPT_4) == 8000
    ensures forall m: ChatModel :: TokenLimit(m) <= TokenLimit(GPT_4)
  {
  }

  datatype Role = System | User | Assistant

  datatype Message = Message(role: Role, content: string)

  /** The three toggles of `preprocess_prompt`. */
  datatype Strategies = Strategies(allowModelUpgrade: bool, allowMessageRemoval: bool, allowMessageTruncation: bool)

  /** The failures of `preprocess_prompt`: the two assertions (empty prompt,
      first message not the system prompt) and the three `ValueError`s. */
  datatype FitError =
    | InvalidPrompt
    | EmptyConversation
    | SystemPromptTooLong(limit: nat)
    | PromptTooLong(limit: nat)

  /** A fitted prompt and the tail of the last message that was cut off. */
  datatype Fitted = Fitted(prompt: seq<Message>, cut: string)

  /** What `preprocess_prompt` returns or raises, and the model it leaves
      the conversation on (an upgrade persists even when the call fails). */
  datatype FitOutcome = FitOutcome(result: Result<Fitted, FitError>, model: ChatModel)

  /** The sum of the messages' token counts. */
  function TotalTokens(tok: Tokenizer, prompt: seq<Message>): nat
  {
    if |prompt| == 0 then 0 else Count(tok, prompt[0].content) + TotalTokens(tok, prompt[1..])
  }

  lemma {:induction false} TotalTokensAppend(tok: Tokenizer, a: seq<Message>, b: seq<Message>)
    ensures TotalTokens(tok, a + b) == TotalTokens(tok, a) + TotalTokens(tok, b)
  {
    if |a| == 0 {
      assert a + b == b;
    } else {
      assert (a + b)[1..] == a[1..] + b;
      TotalTokensAppend(tok, a[1..], b);
    }
  }

  /** The prompt fitter. It validates the prompt, then, while the prompt's
      total token count is not strictly below the model's limit, applies the
      first applicable strategy: upgrade GPT_3_5 to GPT_4, drop the oldest
      non-system message, or (with exactly two messages) truncate the last
      message, which ends the process. The recursive calls disable only the
      upgrade and keep the other two toggles. */
  function Fit(tok: Tokenizer, model: ChatModel, prompt: seq<Message>, strategies: Strategies): (o: FitOutcome)
    ensures o.model == model || (strategies.allowModelUpgrade && model == GPT_3_5 && o.model == GPT_4)
    decreases |prompt|, if strategies.allowModelUpgrade then 1 else 0
  {
    if |prompt| == 0 || prompt[0].role != System then FitOutcome(Err(InvalidPrompt), model)
    else if |prompt| < 2 then FitOutcome(Err(EmptyConversation), model)
    else
      var limit := TokenLimit(model);
      var systemTokens := Count(tok, prompt[0].content);
      if systemTokens > limit then FitOutcome(Err(SystemPromptTooLong(limit)), model)
      else if TotalTokens(tok, prompt) < limit then FitOutcome(Ok(Fitted(prompt, "")), model)
      else if strategies.allowModelUpgrade && model == GPT_3_5 then
        Fit(tok, GPT_4, prompt, strategies.(allowModelUpgrade := false))
      else if |prompt| > 2 && strategies.allowMessageRemoval then
        Fit(tok, model, prompt[..1] + prompt[2..], strategies.(allowModelUpgrade := false))
      else if |prompt| == 2 && strategies.allowMessageTruncation then
        var split := TruncateToTokens(tok, prompt[1].content, limit - systemTokens);
        FitOutcome(Ok(Fitted([prompt[0], Message(prompt[1].role, split.kept)], split.cut)), model)
      else FitOutcome(Err(PromptTooLong(limit)), model)
  }

  /** A well-formed prompt whose system message fits `model`'s limit but
      whose total does not. */
  ghost predicate Overflows(tok: Tokenizer, model: ChatModel, prompt: seq<Message>)
  {
    && |prompt| >= 2 && prompt[0].role == System
    && Count(tok, prompt[0].content) <= TokenLimit(model)
    && TotalTokens(tok, prompt) >= TokenLimit(model)
  }

  /** The validation rungs of the ladder. They fire before any strategy,
      whatever the toggles are, and leave the model alone. */
  lemma FitRejects(tok: Tokenizer, model: ChatModel, prompt: seq<Message>, strategies: Strategies)
    ensures |prompt| == 0 || prompt[0].role != System ==> Fit(tok, model, prompt, strategies) == FitOutcome(Err(InvalidPrompt), model)
    ensures |prompt| == 1 && prompt[0].role == System ==> Fit(tok, model, prompt, strategies) == FitOutcome(Err(EmptyConversation), model)
    ensures |prompt| >= 2 && prompt[0].role == System && Count(tok, prompt[0].content) > TokenLimit(model) ==>
      Fit(tok, model, prompt, strategies) == FitOutcome(Err(SystemPromptTooLong(TokenLimit(model))), model)
  {
  }

  /** A prompt strictly below the limit comes back unchanged with nothing cut. */
  lemma FitKeepsFittingPrompt(tok: Tokenizer, model: ChatModel, prompt: seq<Message>, strategies: Strategies)
    requires |prompt| >= 2 && prompt[0].role == System
    requires Count(tok, prompt[0].content) <= TokenLimit(model)
    requires TotalTokens(tok, prompt) < TokenLimit(model)
    ensures Fit(tok, model, prompt, strategies) == FitOutcome(Ok(Fitted(prompt, "")), model)
  {
  }

  /** The strategy rungs, in priority order, for an overflowing prompt. */
  lemma FitStrategyOrder(tok: Tokenizer, model: ChatModel, prompt: seq<Message>, strategies: Strategies)
    requires Overflows(tok, model, prompt)
    ensures strategies.allowModelUpgrade && model == GPT_3_5 ==>
      Fit(tok, model, prompt, strategies) == Fit(tok, GPT_4, prompt, strategies.(allowModelUpgrade := false))
    ensures !(strategies.allowModelUpgrade && model == GPT_3_5) && |prompt| > 2 && strategies.allowMessageRemoval ==>
      Fit(tok, model, prompt, strategies) == Fit(tok, model, prompt[..1] + prompt[2..], strategies.(allowModelUpgrade := false))
    ensures (!(strategies.allowModelUpgrade && model == GPT_3_5) && !(|prompt| > 2 && strategies.allowMessageRemoval)
             && !(|prompt| == 2 && strategies.allowMessageTruncation)) ==>
      Fit(tok, model, prompt, strategies) == FitOutcome(Err(PromptTooLong(TokenLimit(model))), model)
  {
  }

  /** An upgrade alone is enough when the prompt fits GPT_4's limit: the
      prompt comes back unchanged and the model is now GPT_4. */
  lemma FitUpgradeSuffices(tok: Tokenizer, prompt: seq<Message>, strategies: Strategies)
    requires Overflows(tok, GPT_3_5, prompt) && strategies.allowModelUpgrade
    requires TotalTokens(tok, prompt) < TokenLimit(GPT_4)
    ensures Fit(tok, GPT_3_5, prompt, strategies) == FitOutcome(Ok(Fitted(prompt, "")), GPT_4)
  {
  }

  /** With removal and truncation both allowed, every well-formed prompt
      whose system message fits the limit is fitted: removal brings it down
      to two messages and truncation then always applies. */
  lemma {:induction false} FitSucceedsWithRemovalAndTruncation(tok: Tokenizer, model: ChatModel, prompt: seq<Message>,
                                                               strategies: Strategies)
    requires strategies.allowMessageRemoval && strategies.allowMessageTruncation
    requires |prompt| >= 2 && prompt[0].role == System && Count(tok, prompt[0].content) <= TokenLimit(model)
    ensures Fit(tok, model, prompt, strategies).result.Ok?
    decreases |prompt|, if strategies.allowModelUpgrade then 1 else 0
  {
    if TotalTokens(tok, prompt) >= TokenLimit(model) {
      var next := strategies.(allowModelUpgrade := false);
      FitStrategyOrder(tok, model, prompt, strategies);
      if strategies.allowModelUpgrade && model == GPT_3_5 {
        FitSucceedsWithRemovalAndTruncation(tok, GPT_4, prompt, next);
      } else if |prompt| > 2 {
        var shorter := prompt[..1] + prompt[2..];
        assert shorter[0] == prompt[0];
        FitSucceedsWithRemovalAndTruncation(tok, model, shorter, next);
      }
    }
  }

  /** The fitted prompt keeps the system message, a contiguous run of the
      newest other messages in their original order, and the last message's
      role: only the oldest non-system messages are ever dropped. */
  ghost predicate KeepsShape(prompt: seq<Message>, fitted: seq<Message>)
  {
    && 2 <= |fitted| <= |prompt|
    && fitted[0] == prompt[0]
    && fitted[1..|fitted| - 1] == prompt[|prompt| - |fitted| + 1..|prompt| - 1]
    && fitted[|fitted| - 1].role == prompt[|prompt| - 1].role
  }

  predicate IsSuffix(t: string, s: string)
  {
    |t| <= |s| && t == s[|s| - |t|..]
  }

  lemma {:induction false} FitShape(tok: Tokenizer, model: ChatModel, prompt: seq<Message>, strategies: Strategies)
    ensures var o := Fit(tok, model, prompt, strategies);
      o.result.Ok? ==> KeepsShape(prompt, o.result.value.prompt) && IsSuffix(o.result.value.cut, prompt[|prompt| - 1].content)
    decreases |prompt|, if strategies.allowModelUpgrade then 1 else 0
  {
    var o := Fit(tok, model, prompt, strategies);
    if o.result.Ok? {
      if !Overflows(tok, model, prompt) {
        assert o.result.value == Fitted(prompt, "");
        assert prompt[1..|prompt| - 1] == prompt[|prompt| - |prompt| + 1..|prompt| - 1];
      } else {
        var next := strategies.(allowModelUpgrade := false);
        FitStrategyOrder(tok, model, prompt, strategies);
        if strategies.allowModelUpgrade && model == GPT_3_5 {
          FitShape(tok, GPT_4, prompt, next);
        } else if |prompt| > 2 && strategies.allowMessageRemoval {
          var shorter := prompt[..1] + prompt[2..];
          assert o == Fit(tok, model, shorter, next);
          FitShape(tok, model, shorter, next);
          assert shorter[|shorter| - 1] == prompt[|prompt| - 1];
          RemovalKeepsShape(prompt, o.result.value.prompt);
        } else {
          TruncationKeepsShape(tok, model, prompt);
        }
      }
    }
  }

  /** The truncation rung keeps the system message, keeps the user role,
      and cuts a suffix of the user message. */
  lemma TruncationKeepsShape(tok: Tokenizer, model: ChatModel, prompt: seq<Message>)
    requires |prompt| == 2 && Count(tok, prompt[0].content) <= TokenLimit(model)
    ensures var split := TruncateToTokens(tok, prompt[1].content, TokenLimit(model) - Count(tok, prompt[0].content));
      KeepsShape(prompt, [prompt[0], Message(prompt[1].role, split.kept)]) && IsSuffix(split.cut, prompt[1].content)
  {
  }

  /** Dropping the oldest non-system message keeps the shape of whatever
      the shorter prompt is fitted to. */
  lemma RemovalKeepsShape(prompt: seq<Message>, fitted: seq<Message>)
    requires |prompt| > 2 && KeepsShape(prompt[..1] + prompt[2..], fitted)
    ensures KeepsShape(prompt, fitted)
  {
    var shorter := prompt[..1] + prompt[2..];
    assert shorter[|shorter| - |fitted| + 1..|shorter| - 1] == prompt[|prompt| - |fitted| + 1..|prompt| - 1];
  }

  /** With a prefix-decoding tokenizer nothing is lost: the last fitted
      message's content followed by the cut tail is the last message's
      original content. */
  lemma {:induction false} FitIsLossless(tok: Tokenizer, model: ChatModel, prompt: seq<Message>, strategies: Strategies)
    requires DecodesToPrefixes(tok)
    ensures var o := Fit(tok, model, prompt, strategies);
      o.result.Ok? ==>
        (&& |o.result.value.prompt| >= 2 && |prompt| >= 2
         && o.result.value.prompt[|o.result.value.prompt| - 1].content + o.result.value.cut == prompt[|prompt| - 1].content)
    decreases |prompt|, if strategies.allowModelUpgrade then 1 else 0
  {
    var o := Fit(tok, model, prompt, strategies);
    if o.result.Ok? && Overflows(tok, model, prompt) {
      var next := strategies.(allowModelUpgrade := false);
      if strategies.allowModelUpgrade && model == GPT_3_5 {
        FitIsLossless(tok, GPT_4, prompt, next);
      } else if |prompt| > 2 && strategies.allowMessageRemoval {
        FitIsLossless(tok, model, prompt[..1] + prompt[2..], next);
      } else {
        TruncateIsLossless(tok, prompt[1].content, TokenLimit(model) - Count(tok, prompt[0].content));
      }
    }
  }

  /** With a tokenizer whose truncations re-encode within budget, every
      fitted prompt is within the limit of the model it leaves in place. */
  lemma {:induction false} FitWithinLimit(tok: Tokenizer, model: ChatModel, prompt: seq<Message>, strategies: Strategies)
    requires ReencodeBound(tok)
    ensures var o := Fit(tok, model, prompt, strategies);
      o.result.Ok? ==> TotalTokens(tok, o.result.value.prompt) <= TokenLimit(o.model)
    decreases |prompt|, if strategies.allowModelUpgrade then 1 else 0
  {
    var o := Fit(tok, model, prompt, strategies);
    if o.result.Ok? && Overflows(tok, model, prompt) {
      var next := strategies.(allowModelUpgrade := false);
      if strategies.allowModelUpgrade && model == GPT_3_5 {
        FitWithinLimit(tok, GPT_4, prompt, next);
      } else if |prompt| > 2 && strategies.allowMessageRemoval {
        FitWithinLimit(tok, model, prompt[..1] + prompt[2..], next);
      } else {
        var budget := TokenLimit(model) - Count(tok, prompt[0].content);
        TruncateFitsBudget(tok, prompt[1].content, budget);
        var f := o.result.value.prompt;
        assert TotalTokens(tok, f[1..]) == Count(tok, f[1].content) + TotalTokens(tok, f[1..][1..]);
        assert f[1..][1..] == [];
      }
    }
  }

  /** A non-empty cut only comes from truncation, which needs its toggle,
      leaves exactly two messages, and happens only when the system message
      and the last message together reach the limit of the final model
      (which is GPT_4 whenever an upgrade was allowed). */
  lemma {:induction false} FitCutFacts(tok: Tokenizer, model: ChatModel, prompt: seq<Message>, strategies: Strategies)
    ensures var o := Fit(tok, model, prompt, strategies);
      o.result.Ok? && o.result.value.cut != "" ==>
        && strategies.allowMessageTruncation
        && |o.result.value.prompt| == 2 && |prompt| >= 2
        && Count(tok, prompt[0].content) <= TokenLimit(o.model)
        && Count(tok, prompt[0].content) + Count(tok, prompt[|prompt| - 1].content) >= TokenLimit(o.model)
        && (strategies.allowModelUpgrade ==> o.model == GPT_4)
    decreases |prompt|, if strategies.allowModelUpgrade then 1 else 0
  {
    var o := Fit(tok, model, prompt, strategies);
    if o.result.Ok? && o.result.value.cut != "" {
      assert Overflows(tok, model, prompt);
      var next := strategies.(allowModelUpgrade := false);
      if strategies.allowModelUpgrade && model == GPT_3_5 {
        FitCutFacts(tok, GPT_4, prompt, next);
      } else if |prompt| > 2 && strategies.allowMessageRemoval {
        var shorter := prompt[..1] + prompt[2..];
        FitCutFacts(tok, model, shorter, next);
        assert shorter[|shorter| - 1] == prompt[|prompt| - 1];
      } else {
        assert prompt == [prompt[0]] + [prompt[1]];
        TotalTokensAppend(tok, [prompt[0]], [prompt[1]]);
      }
    }
  }

  /** What `preprocess_prompt` as written does: return like `Fit`, or crash
      in the tokenizer, leaving the conversation on the given model. */
  datatype AsWrittenOutcome = Returned(outcome: FitOutcome) | TokenizerCrash(model: ChatModel)

  /** `preprocess_prompt` as written. Its two recursive calls pass their
      arguments positionally in the wrong order, so the recursive call gets
      the tokenizer as `allow_model_upgrade` and a bool as `tokenizer`, and
      fails with an `AttributeError` as soon as it counts tokens; an upgrade
      assigned before the call stays in place. */
  function FitAsWritten(tok: Tokenizer, model: ChatModel, prompt: seq<Message>, strategies: Strategies): (o: AsWrittenOutcome)
    ensures o.Returned? ==> o.outcome == Fit(tok, model, prompt, strategies)
    ensures o.TokenizerCrash? <==>
      Overflows(tok, model, prompt) &&
      ((strategies.allowModelUpgrade && model == GPT_3_5) || (|prompt| > 2 && strategies.allowMessageRemoval))
  {
    if |prompt| == 0 || prompt[0].role != System then Returned(FitOutcome(Err(InvalidPrompt), model))
    else if |prompt| < 2 then Returned(FitOutcome(Err(EmptyConversation), model))
    else
      var limit := TokenLimit(model);
      var systemTokens := Count(tok, prompt[0].content);
      if systemTokens > limit then Returned(FitOutcome(Err(SystemPromptTooLong(limit)), model))
      else if TotalTokens(tok, prompt) < limit then Returned(FitOutcome(Ok(Fitted(prompt, "")), model))
      else if strategies.allowModelUpgrade && model == GPT_3_5 then TokenizerCrash(GPT_4)
      else if |prompt| > 2 && strategies.allowMessageRemoval then TokenizerCrash(model)
      else if |prompt| == 2 && strategies.allowMessageTruncation then
        var split := TruncateToTokens(tok, prompt[1].content, limit - systemTokens);
        Returned(FitOutcome(Ok(Fitted([prompt[0], Message(prompt[1].role, split.kept)], split.cut)), model))
      else Returned(FitOutcome(Err(PromptTooLong(limit)), model))
  }

  /** The input that shows the defect: a prompt that overflows GPT_3_5 but
      fits GPT_4, with the upgrade allowed. As written the call crashes; as
      intended the upgrade alone fits it. */
  lemma UpgradeCrashesAsWritten(tok: Tokenizer, prompt: seq<Message>, strategies: Strategies)
    requires Overflows(tok, GPT_3_5, prompt) && strategies.allowModelUpgrade
    requires TotalTokens(tok, prompt) < TokenLimit(GPT_4)
    ensures FitAsWritten(tok, GPT_3_5, prompt, strategies) == TokenizerCrash(GPT_4)
    ensures Fit(tok, GPT_3_5, prompt, strategies) == FitOutcome(Ok(Fitted(prompt, "")), GPT_4)
  {
    FitUpgradeSuffices(tok, prompt, strategies);
  }

  /** What the completion service answers, as a function of the model, the
      fitted messages and the temperature. */
  type CompletionOracle = (ChatModel, seq<Message>, real) -> string

  /** The fields of `OpenAIChatResponse` that the core uses: the user's
      message as sent, the cut tail, the reply and a copy of the history as
      it was before this exchange. */
  datatype ChatResponse = ChatResponse(prompt: string, cutPrompt: string, content: string, history: seq<Message>)

  /** The mutable state of an `OpenAIConversation`. */
  datatype ConversationState = ConversationState(model: ChatModel, systemPrompt: string, history: seq<Message>)

  /** A completion's response (or failure) and the state it leaves. */
  datatype Exchange = Exchange(response: Result<ChatResponse, FitError>, state: ConversationState)

  /** `get_chat_history`: the system prompt as a message, then the history. */
  function FullHistory(st: ConversationState): (h: seq<Message>)
    ensures |h| == |st.history| + 1 && h[0] == Message(System, st.systemPrompt) && h[1..] == st.history
  {
    [Message(System, st.systemPrompt)] + st.history
  }

  /** The prompt `get_completion` hands to the fitter: the (possibly
      replaced) system prompt, the history, and the new user message. */
  function BasePrompt(st: ConversationState, userMessage: string, systemPrompt: Option<string>): (p: seq<Message>)
    ensures |p| == |st.history| + 2 && p[|p| - 1] == Message(User, userMessage)
    ensures p[0] == Message(System, if systemPrompt.Some? then systemPrompt.value else st.systemPrompt)
  {
    var sp := if systemPrompt.Some? then systemPrompt.value else st.systemPrompt;
    FullHistory(st.(systemPrompt := sp)) + [Message(User, userMessage)]
  }

  /** `get_completion`: maybe replace the system prompt, fit
      `[system] + history + [user]`, ask the completion service, then append
      the original user message and the reply to the history. */
  function Complete(tok: Tokenizer, st: ConversationState, userMessage: string, temperature: real,
                    strategies: Strategies, systemPrompt: Option<string>, complete: CompletionOracle): (x: Exchange)
    ensures x.state.systemPrompt == if systemPrompt.Some? then systemPrompt.value else st.systemPrompt
    ensures x.state.model == st.model || (strategies.allowModelUpgrade && st.model == GPT_3_5 && x.state.model == GPT_4)
    ensures x.response.Err? ==> x.state.history == st.history
    ensures x.response.Ok? ==>
      && |x.state.history| == |st.history| + 2
      && x.state.history[..|st.history|] == st.history
      && x.state.history[|st.history|..] == [Message(User, userMessage), Message(Assistant, x.response.value.content)]
      && x.response.value.prompt == userMessage
      && IsSuffix(x.response.value.cutPrompt, userMessage)
  {
    var sp := if systemPrompt.Some? then systemPrompt.value else st.systemPrompt;
    var base := BasePrompt(st, userMessage, systemPrompt);
    var o := Fit(tok, st.model, base, strategies);
    match o.result
    case Err(e) => Exchange(Err(e), ConversationState(o.model, sp, st.history))
    case Ok(fitted) =>
      FitShape(tok, st.model, base, strategies);
      var content := complete(o.model, fitted.prompt, temperature);
      Exchange(Ok(ChatResponse(userMessage, fitted.cut, content, st.history)),
               ConversationState(o.model, sp, st.history + [Message(User, userMessage), Message(Assistant, content)]))
  }

  /** A completion is the fitter followed by the service: it fails exactly
      when fitting fails, with the fitter's error; otherwise the service is
      asked with the fitted prompt on the model the fitter leaves, and the
      response carries the fitter's cut and the service's reply. Either way
      the conversation stays on the model the fitter leaves. */
  lemma CompleteIsFit(tok: Tokenizer, st: ConversationState, userMessage: string, temperature: real,
                      strategies: Strategies, systemPrompt: Option<string>, complete: CompletionOracle)
    ensures var o := Fit(tok, st.model, BasePrompt(st, userMessage, systemPrompt), strategies);
      var x := Complete(tok, st, userMessage, temperature, strategies, systemPrompt, complete);
      && x.state.model == o.model
      && (o.result.Err? ==> x.response == Err(o.result.error))
      && (o.result.Ok? ==>
            x.response == Ok(ChatResponse(userMessage, o.result.value.cut,
                                          complete(o.model, o.result.value.prompt, temperature), st.history)))
  {
  }

  /** With a prefix-decoding tokenizer, the user message sent to the service
      followed by the response's cut tail is the user's whole message: the
      cut tail is exactly what a further call has left to send. */
  lemma CompleteIsLossless(tok: Tokenizer, st: ConversationState, userMessage: string, temperature: real,
                           strategies: Strategies, systemPrompt: Option<string>, complete: CompletionOracle)
    requires DecodesToPrefixes(tok)
    ensures var o := Fit(tok, st.model, BasePrompt(st, userMessage, systemPrompt), strategies);
      var x := Complete(tok, st, userMessage, temperature, strategies, systemPrompt, complete);
      o.result.Ok? ==>
        var sent := o.result.value.prompt;
        && |sent| >= 2 && sent[|sent| - 1].role == User
        && sent[|sent| - 1].content + x.response.value.cutPrompt == userMessage
  {
    var base := BasePrompt(st, userMessage, systemPrompt);
    CompleteIsFit(tok, st, userMessage, temperature, strategies, systemPrompt, complete);
    FitShape(tok, st.model, base, strategies);
    FitIsLossless(tok, st.model, base, strategies);
  }

  /** A prompt holding the system message, the old history, an earlier user
      message, its reply and a new user message totals at least the system
      message and the earlier user message. */
  lemma ResentPromptTotal(tok: Tokenizer, system: Message, history: seq<Message>, earlier: Message, reply: Message,
                          next: Message)
    ensures TotalTokens(tok, [system] + (history + [earlier, reply]) + [next])
            >= Count(tok, system.content) + Count(tok, earlier.content)
  {
    var head := [system] + history + [earlier];
    assert [system] + (history + [earlier, reply]) + [next] == head + [reply, next];
    TotalTokensAppend(tok, head, [reply, next]);
    TotalTokensAppend(tok, [system] + history, [earlier]);
    TotalTokensAppend(tok, [system], history);
  }

  /** With message removal off, a completion whose prompt had to be cut is
      followed by a completion that fails: the history now holds the uncut
      user message, so the next prompt has more than two messages and
      reaches the limit again, and no strategy applies. */
  lemma CompleteAfterCutRejects(tok: Tokenizer, st: ConversationState, message: string, next: string, temperature: real,
                                strategies: Strategies, systemPrompt: Option<string>, complete: CompletionOracle)
    requires !strategies.allowMessageRemoval
    requires var x := Complete(tok, st, message, temperature, strategies, systemPrompt, complete);
      x.response.Ok? && x.response.value.cutPrompt != ""
    ensures var x := Complete(tok, st, message, temperature, strategies, systemPrompt, complete);
      Complete(tok, x.state, next, temperature, strategies, systemPrompt, complete).response
        == Err(PromptTooLong(TokenLimit(x.state.model)))
  {
    var x := Complete(tok, st, message, temperature, strategies, systemPrompt, complete);
    var sp := if systemPrompt.Some? then systemPrompt.value else st.systemPrompt;
    var system := Message(System, sp);
    var first := BasePrompt(st, message, systemPrompt);
    assert first == [system] + st.history + [Message(User, message)];
    FitCutFacts(tok, st.model, first, strategies);
    var model := x.state.model;
    assert model == Fit(tok, st.model, first, strategies).model;
    var reply := Message(Assistant, x.response.value.content);
    assert x.state.history == st.history + [Message(User, message), reply];
    var second := BasePrompt(x.state, next, systemPrompt);
    assert second == [system] + (st.history + [Message(User, message), reply]) + [Message(User, next)];
    ResentPromptTotal(tok, system, st.history, Message(User, message), reply, Message(User, next));
    FitStrategyOrder(tok, model, second, strategies);
  }

  /** With removal and truncation both allowed, a completion whose system
      prompt fits GPT-3.5's limit always succeeds. */
  lemma CompleteSucceedsWithRemovalAndTruncation(tok: Tokenizer, st: ConversationState, message: string, temperature: real,
                                                 strategies: Strategies, systemPrompt: Option<string>,
                                                 complete: CompletionOracle)
    requires strategies.allowMessageRemoval && strategies.allowMessageTruncation
    requires Count(tok, if systemPrompt.Some? then systemPrompt.value else st.systemPrompt) <= TokenLimit(GPT_3_5)
    ensures Complete(tok, st, message, temperature, strategies, systemPrompt, complete).response.Ok?
  {
    var sp := if systemPrompt.Some? then systemPrompt.value else st.systemPrompt;
    var base := BasePrompt(st, message, systemPrompt);
    assert base[0] == Message(System, sp);
    FitSucceedsWithRemovalAndTruncation(tok, st.model, base, strategies);
  }

  /** History holds no system message. */
  ghost predicate NoSystemMessages(history: seq<Message>)
  {
    forall i | 0 <= i < |history| :: history[i].role != System
  }

  class OpenAIConversation {
    const tok: Tokenizer
    var model: ChatModel
    var history: seq<Message>
    var systemPrompt: string

    ghost predicate Valid()
      reads this
    {
      NoSystemMessages(history)
    }

    function State(): ConversationState
      reads this
    {
      ConversationState(model, systemPrompt, history)
    }

    /** `system_prompt or ""`: an absent or empty system prompt is "". */
    constructor (tok: Tokenizer, model: ChatModel, systemPrompt: Option<string>)
      ensures Valid() && this.tok == tok
      ensures State() == ConversationState(model, if systemPrompt.Some? then systemPrompt.value else "", [])
    {
      this.tok := tok;
      this.model := model;
      this.history := [];
      this.systemPrompt := if systemPrompt.Some? then systemPrompt.value else "";
    }

    method AddMessage(role: Role, content: string)
      modifies this`history
      ensures history == old(history) + [Message(role, content)]
      ensures role != System ==> (old(Valid()) ==> Valid())
    {
      history := history + [Message(role, content)];
    }

    method SetSystemPrompt(prompt: string)
      modifies this`systemPrompt
      ensures systemPrompt == prompt
    {
      systemPrompt := prompt;
    }

    method GetChatHistory() returns (h: seq<Message>)
      ensures h == FullHistory(State())
      ensures Valid() ==> forall i | 1 <= i < |h| :: h[i].role != System
    {
      h := [Message(System, systemPrompt)] + history;
    }

    /** `preprocess_prompt`, recursive as in the source; only the model
        field changes. */
    method PreprocessPrompt(prompt: seq<Message>, strategies: Strategies) returns (r: Result<Fitted, FitError>)
      modifies this`model
      ensures FitOutcome(r, model) == Fit(tok, old(model), prompt, strategies)
      decreases |prompt|, if strategies.allowModelUpgrade then 1 else 0
    {
      if |prompt| == 0 || prompt[0].role != System {
        return Err(InvalidPrompt);
      }
      if |prompt| < 2 {
        return Err(EmptyConversation);
      }
      var limit := TokenLimit(model);
      var systemTokens := Count(tok, prompt[0].content);
      if systemTokens > limit {
        return Err(SystemPromptTooLong(limit));
      }
      if TotalTokens(tok, prompt) >= limit {
        if strategies.allowModelUpgrade && model == GPT_3_5 {
          model := GPT_4;
          r := PreprocessPrompt(prompt, strategies.(allowModelUpgrade := false));
          return;
        }
        if |prompt| > 2 && strategies.allowMessageRemoval {
          r := PreprocessPrompt(prompt[..1] + prompt[2..], strategies.(allowModelUpgrade := false));
          return;
        }
        if |prompt| == 2 && strategies.allowMessageTruncation {
          var split := TruncateToTokens(tok, prompt[1].content, limit - systemTokens);
          return Ok(Fitted([prompt[0], Message(prompt[1].role, split.kept)], split.cut));
        }
        return Err(PromptTooLong(limit));
      }
      return Ok(Fitted(prompt, ""));
    }

    /** `get_completion`, with the completion service as an oracle. */
    method GetCompletion(userMessage: string, temperature: real, strategies: Strategies,
                         systemPrompt: Option<string>, complete: CompletionOracle)
      returns (r: Result<ChatResponse, FitError>)
      requires Valid()
      modifies this
      ensures Valid()
      ensures Exchange(r, State()) == Complete(tok, old(State()), userMessage, temperature, strategies, systemPrompt, complete)
    {
      if systemPrompt.Some? {
        SetSystemPrompt(systemPrompt.value);
      }
      var h := GetChatHistory();
      var fitted := PreprocessPrompt(h + [Message(User, userMessage)], strategies);
      if fitted.Err? {
        return Err(fitted.error);
      }
      var content := complete(model, fitted.value.prompt, temperature);
      r := Ok(ChatResponse(userMessage, fitted.value.cut, content, history));
      AddMessage(User, userMessage);
      AddMessage(Assistant, content);
    }
  }
}

=== FILE: results.dfy ===
/** Option and Result values: the model's stand-ins for Python's `None`
    and for the exceptions the bot raises. */
module Results {

  datatype Option<+T> = None | Some(value: T)

  datatype Result<+T, +E> = Ok(value: T) | Err(error: E)
}

=== FILE: summarizer.dfy ===
/** The recursive summarizer of bot/modules/summarizer.py: the two prompt
    templates, the marker-based extraction of the model's reply, the merge
    with a previous partial summary, and `generate_summary` as a recursive
    chain of completions on one conversation. */
module Summarization {
  import opened Results
  import opened Tokens
  import opened Conversation

  // ---------------------------------------------------------------------
  // Decimal rendering of the word cap (Python's `str(int)`).

  predicate IsDigit(c: char)
  {
    '0' <= c <= '9'
  }

  function DigitChar(d: nat): (c: char)
    requires d < 10
    ensures IsDigit(c) && c as int - '0' as int == d
  {
    ('0' as int + d) as char
  }

  function NatToDecimal(n: nat): (r: string)
    ensures |r| >= 1 && forall i | 0 <= i < |r| :: IsDigit(r[i])
    decreases n
  {
    if n < 10 then [DigitChar(n)] else NatToDecimal(n / 10) + [DigitChar(n % 10)]
  }

  /** The number a string of decimal digits denotes. */
  function DecimalValue(s: string): nat
    requires forall i | 0 <= i < |s| :: IsDigit(s[i])
  {
    if |s| == 0 then 0
    else
      assert IsDigit(s[|s| - 1]);
      DecimalValue(s[..|s| - 1]) * 10 + (s[|s| - 1] as int - '0' as int)
  }

  lemma {:induction false} DecimalRoundTrip(n: nat)
    ensures DecimalValue(NatToDecimal(n)) == n
    decreases n
  {
    if n >= 10 {
      var s := NatToDecimal(n / 10) + [DigitChar(n % 10)];
      assert s[..|s| - 1] == NatToDecimal(n / 10);
      DecimalRoundTrip(n / 10);
    }
  }

  function IntToDecimal(i: int): string
  {
    if i < 0 then "-" + NatToDecimal(-i) else NatToDecimal(i)
  }

  /** A rendering starts with '-' exactly for a negative number. */
  lemma SignShows(i: int)
    ensures IntToDecimal(i)[0] == '-' <==> i < 0
  {
    if i >= 0 {
      assert IsDigit(NatToDecimal(i)[0]);
    }
  }

  /** Distinct numbers render differently. */
  lemma IntToDecimalInjective(a: int, b: int)
    requires IntToDecimal(a) == IntToDecimal(b)
    ensures a == b
  {
    var s := IntToDecimal(a);
    SignShows(a);
    SignShows(b);
    if a < 0 {
      assert s[1..] == NatToDecimal(-a) == NatToDecimal(-b);
      DecimalRoundTrip(-a);
      DecimalRoundTrip(-b);
    } else {
      DecimalRoundTrip(a);
      DecimalRoundTrip(b);
    }
  }

  // ---------------------------------------------------------------------
  // Prompt construction (`_get_user_message`).

  const WordsLimitIntro := " and less than "
  const WordsLimitOutro := " words"

  /** `WORDS_LIMIT_ADDENDUM` filled in with the cap in decimal, or "" without
      a word cap. */
  function WordsLimitText(wordsLimit: Option<int>): (r: string)
    ensures wordsLimit.None? <==> r == ""
    ensures wordsLimit.Some? ==>
      && |r| > |WordsLimitIntro| + |WordsLimitOutro|
      && r[..|WordsLimitIntro|] == WordsLimitIntro
      && r[|WordsLimitIntro|..|r| - |WordsLimitOutro|] == IntToDecimal(wordsLimit.value)
      && r[|r| - |WordsLimitOutro|..] == WordsLimitOutro
  {
    if wordsLimit.None? then ""
    else
      var r := WordsLimitIntro + IntToDecimal(wordsLimit.value) + WordsLimitOutro;
      assert r[|WordsLimitIntro|..|r| - |WordsLimitOutro|] == IntToDecimal(wordsLimit.value);
      r
  }

  /** The cap the test suite uses renders as in its expected messages. */
  lemma WordsLimitTextOfFifty()
    ensures WordsLimitText(Some(50)) == " and less than 50 words"
  {
    assert NatToDecimal(50) == "50";
  }

  /** Different caps give different texts: the cap is recoverable. */
  lemma WordsLimitTextInjective(a: Option<int>, b: Option<int>)
    requires WordsLimitText(a) == WordsLimitText(b)
    ensures a == b
  {
    if a.Some? && b.Some? {
      IntToDecimalInjective(a.value, b.value);
    }
  }

  /** The first line of `PROMPT`, up to the word cap. Its first character
      is written apart because the verifier does not read characters out of
      a long string literal; written this way, `PromptIntro[0] == 'G'`
      follows, and the shape lemmas tell the two templates apart by it. */
  const PromptIntro := "G" + "enerate an executive summary of the text in the following format"
  /** The rest of `PROMPT`, from the word cap to the text. */
  const PromptTail := ":\nSubject: [theme]\nKey points:\n- ...\n\nThe text is:\n"
  /** `RECURSIVE_PROMPT` up to the previous summary; its leading newline
      is written apart for the same reason. */
  const RecursiveIntro := "\n" + "You have generated the following summary from the beginning of a text to summarize:\n"
  /** `RECURSIVE_PROMPT` from the previous summary to the word cap. */
  const RecursiveLead := "\n\nNow, generate more key points for the next part of text in the following format"
  /** `RECURSIVE_PROMPT` from the word cap to the text. */
  const RecursiveTail := ":\n- ...\n\nThe next part of text is: "

  /** `PROMPT` filled in. */
  function InitialPrompt(wordsLimitText: string, text: string): string
  {
    (PromptIntro + (wordsLimitText + PromptTail)) + (text + "\n")
  }

  /** `RECURSIVE_PROMPT` filled in. */
  function RecursivePrompt(wordsLimitText: string, text: string, previousSummary: string): string
  {
    (RecursiveIntro + (previousSummary + (RecursiveLead + (wordsLimitText + RecursiveTail)))) + (text + "\n")
  }

  /** A message `head + middle + tail` starts with `head`, carries
      `middle` right after it, and ends with `tail`. */
  lemma Framed(head: string, middle: string, tail: string)
    ensures var r := (head + middle) + tail;
      && head <= r
      && |r| == |head| + |middle| + |tail|
      && r[|head|..|head| + |middle|] == middle
      && r[|r| - |tail|..] == tail
  {
    var r := (head + middle) + tail;
    assert r[..|head|] == head;
    assert r[|head|..|head| + |middle|] == (head + middle)[|head|..];
  }

  /** `x` sits at offset `i` of `s`. */
  predicate SitsAt(s: string, x: string, i: int)
  {
    0 <= i && i + |x| <= |s| && s[i..i + |x|] == x
  }

  /** What sits at offset `j` of a part sitting at offset `i` of a whole
      sits at offset `i + j` of the whole. */
  lemma SitsWithin(s: string, part: string, i: int, x: string, j: int)
    requires SitsAt(s, part, i) && SitsAt(part, x, j)
    ensures SitsAt(s, x, i + j)
  {
    forall k | 0 <= k < |x|
      ensures s[i + j..i + j + |x|][k] == x[k]
    {
      assert x[k] == part[j + k] == s[i..i + |part|][j + k];
    }
  }

  /** The initial prompt starts with its own opening line and not the
      continuation's, carries the word cap right after the opening line and
      then the rest of the format, and ends with the text. */
  lemma InitialPromptShape(wordsLimitText: string, text: string)
    ensures var r := InitialPrompt(wordsLimitText, text);
      && PromptIntro <= r && !(RecursiveIntro <= r)
      && |r| == |PromptIntro| + |wordsLimitText| + |PromptTail| + |text| + 1
      && SitsAt(r, wordsLimitText + PromptTail, |PromptIntro|)
      && r[|r| - |text| - 1..] == text + "\n"
  {
    Framed(PromptIntro, wordsLimitText + PromptTail, text + "\n");
    assert PromptIntro[0] == 'G' && RecursiveIntro[0] == '\n';
  }

  /** Where the parts of `intro + (summary + (lead + (cap + tail))) + text`
      sit, for any strings. */
  lemma NestedLayout(intro: string, summary: string, lead: string, cap: string, tail: string, text: string)
    ensures var r := (intro + (summary + (lead + (cap + tail)))) + (text + "\n");
      && intro <= r
      && |r| == |intro| + |summary| + |lead| + |cap| + |tail| + |text| + 1
      && SitsAt(r, summary, |intro|)
      && SitsAt(r, cap + tail, |intro| + |summary| + |lead|)
      && r[|r| - |text| - 1..] == text + "\n"
  {
    var capped := cap + tail;
    var middle := summary + (lead + capped);
    var r := (intro + middle) + (text + "\n");
    Framed(intro, middle, text + "\n");
    assert SitsAt(middle, summary, 0) by {
      assert middle[..|summary|] == summary;
    }
    SitsWithin(r, middle, |intro|, summary, 0);
    assert SitsAt(middle, capped, |summary| + |lead|) by {
      assert middle[|summary| + |lead|..] == capped;
    }
    SitsWithin(r, middle, |intro|, capped, |summary| + |lead|);
  }

  /** The continuation prompt starts with its own opening and not the
      initial one's, carries the previous summary right after the opening,
      the word cap and the rest of the format after the lead-in that follows
      the summary, and ends with the text. */
  lemma RecursivePromptShape(wordsLimitText: string, text: string, previousSummary: string)
    ensures var r := RecursivePrompt(wordsLimitText, text, previousSummary);
      && RecursiveIntro <= r && !(PromptIntro <= r)
      && |r| == |RecursiveIntro| + |previousSummary| + |RecursiveLead| + |wordsLimitText| + |RecursiveTail| + |text| + 1
      && SitsAt(r, previousSummary, |RecursiveIntro|)
      && SitsAt(r, wordsLimitText + RecursiveTail, |RecursiveIntro| + |previousSummary| + |RecursiveLead|)
      && r[|r| - |text| - 1..] == text + "\n"
  {
    var r := RecursivePrompt(wordsLimitText, text, previousSummary);
    NestedLayout(RecursiveIntro, previousSummary, RecursiveLead, wordsLimitText, RecursiveTail, text);
    assert r[0] == RecursiveIntro[0] == '\n' && PromptIntro[0] == 'G';
  }

  /** `_get_user_message`: the initial template without a previous
      summary, otherwise the continuation template carrying it. */
  function UserMessage(text: string, wordsLimit: Option<int>, previousSummary: Option<string>): string
  {
    var wordsLimitText := WordsLimitText(wordsLimit);
    if previousSummary.None? then InitialPrompt(wordsLimitText, text)
    else RecursivePrompt(wordsLimitText, text, previousSummary.value)
  }

  /** The initial template is used exactly when there is no previous
      summary, the continuation template carries the previous summary, and
      either way the message ends with the text. */
  lemma UserMessageShape(text: string, wordsLimit: Option<int>, previousSummary: Option<string>)
    ensures var r := UserMessage(text, wordsLimit, previousSummary);
      && (PromptIntro <= r <==> previousSummary.None?)
      && (RecursiveIntro <= r <==> previousSummary.Some?)
      && (previousSummary.Some? ==> SitsAt(r, previousSummary.value, |RecursiveIntro|))
      && |r| > |text| && r[|r| - |text| - 1..] == text + "\n"
  {
    var wordsLimitText := WordsLimitText(wordsLimit);
    if previousSummary.None? {
      InitialPromptShape(wordsLimitText, text);
    } else {
      RecursivePromptShape(wordsLimitText, text, previousSummary.value);
    }
  }

  /** Where the word cap goes: right after the initial template's opening
      line, or after the continuation template's lead-in. */
  function CapOffset(previousSummary: Option<string>): nat
  {
    if previousSummary.None? then |PromptIntro| else |RecursiveIntro| + |previousSummary.value| + |RecursiveLead|
  }

  /** The word cap text sits at `CapOffset`, followed by the rest of the
      format ending in ":" and a newline; the message's length is fixed by
      the cap text, the previous summary and the text. */
  lemma UserMessageWordsLimit(text: string, wordsLimit: Option<int>, previousSummary: Option<string>)
    ensures var r := UserMessage(text, wordsLimit, previousSummary);
      var w := WordsLimitText(wordsLimit);
      var tail := if previousSummary.None? then PromptTail else RecursiveTail;
      && |r| == CapOffset(previousSummary) + |w| + |tail| + |text| + 1
      && SitsAt(r, w + tail, CapOffset(previousSummary))
  {
    var w := WordsLimitText(wordsLimit);
    if previousSummary.None? {
      InitialPromptShape(w, text);
    } else {
      RecursivePromptShape(w, text, previousSummary.value);
    }
  }

  /** The message determines the word cap: two messages for the same text
      and previous summary are equal only when their caps are. */
  lemma UserMessageRevealsWordsLimit(text: string, a: Option<int>, b: Option<int>, previousSummary: Option<string>)
    requires UserMessage(text, a, previousSummary) == UserMessage(text, b, previousSummary)
    ensures a == b
  {
    var r := UserMessage(text, a, previousSummary);
    var wa := WordsLimitText(a);
    var wb := WordsLimitText(b);
    var tail := if previousSummary.None? then PromptTail else RecursiveTail;
    var p := CapOffset(previousSummary);
    UserMessageWordsLimit(text, a, previousSummary);
    UserMessageWordsLimit(text, b, previousSummary);
    assert |wa| == |wb|;
    assert wa == r[p..p + |wa + tail|][..|wa|];
    assert wb == r[p..p + |wb + tail|][..|wb|];
    WordsLimitTextInjective(a, b);
  }

  // ---------------------------------------------------------------------
  // Reply extraction (`_process_summary`).

  predicate OccursAt(s: string, pattern: string, i: int)
  {
    0 <= i && i + |pattern| <= |s| && s[i..i + |pattern|] == pattern
  }

  /** Python's `str.find`: the first index where `pattern` occurs, or -1. */
  function Find(s: string, pattern: string): int
    decreases |s|
  {
    if |s| < |pattern| then -1
    else if s[..|pattern|] == pattern then 0
    else
      var k := Find(s[1..], pattern);
      if k < 0 then -1 else k + 1
  }

  /** An occurrence at `j` > 0 is an occurrence at `j - 1` in the tail. */
  lemma OccursShift(s: string, pattern: string, j: int)
    requires |s| >= 1 && j >= 1
    ensures OccursAt(s, pattern, j) <==> OccursAt(s[1..], pattern, j - 1)
  {
    if j + |pattern| <= |s| {
      var here := s[j..j + |pattern|];
      var there := s[1..][j - 1..j - 1 + |pattern|];
      forall k | 0 <= k < |pattern|
        ensures here[k] == there[k]
      {
        assert here[k] == s[j + k];
        assert there[k] == s[1..][j - 1 + k] == s[j + k];
      }
      assert here == there;
    }
  }

  /** `Find` returns the first occurrence, and -1 only when there is none. */
  lemma {:induction false} FindIsFirstOccurrence(s: string, pattern: string)
    ensures var i := Find(s, pattern);
      && (i >= 0 ==> OccursAt(s, pattern, i) && forall j | 0 <= j < i :: !OccursAt(s, pattern, j))
      && (i < 0 ==> forall j :: !OccursAt(s, pattern, j))
    decreases |s|
  {
    if |s| >= |pattern| && s[..|pattern|] != pattern {
      FindIsFirstOccurrence(s[1..], pattern);
      forall j | 1 <= j
        ensures OccursAt(s, pattern, j) <==> OccursAt(s[1..], pattern, j - 1)
      {
        OccursShift(s, pattern, j);
      }
    }
  }

  /** `_process_summary`: keep `summary` from the first occurrence of
      `cutFrom` on, or whole without one. */
  function ProcessSummary(summary: string, cutFrom: string): string
  {
    FindIsFirstOccurrence(summary, cutFrom);
    var i := Find(summary, cutFrom);
    if i != -1 then summary[i..] else summary
  }

  /** `kept` is `content` from the first occurrence of `marker` on, or all
      of `content` when the marker does not occur: a suffix that starts with
      the marker and leaves no occurrence of it in the part dropped. */
  ghost predicate KeptFromFirst(kept: string, content: string, marker: string)
  {
    && IsSuffix(kept, content)
    && (Find(content, marker) < 0 ==> kept == content)
    && (Find(content, marker) >= 0 ==>
          marker <= kept && forall j | 0 <= j < |content| - |kept| :: !OccursAt(content, marker, j))
  }

  /** The extraction keeps the reply from the marker's first occurrence on,
      or whole without one. */
  lemma ProcessSummaryShape(summary: string, cutFrom: string)
    ensures KeptFromFirst(ProcessSummary(summary, cutFrom), summary, cutFrom)
  {
    FindIsFirstOccurrence(summary, cutFrom);
  }

  /** Text in front of the first marker is dropped: when `rest` starts with
      the marker and the marker occurs nowhere earlier in `prefix + rest`,
      the extraction is `rest`, as in the test suite's `_process_summary`
      case. */
  lemma ProcessSummaryDropsUnmarkedPrefix(prefix: string, rest: string, marker: string)
    requires marker <= rest
    requires forall j | 0 <= j < |prefix| :: !OccursAt(prefix + rest, marker, j)
    ensures ProcessSummary(prefix + rest, marker) == rest
  {
    var content := prefix + rest;
    var kept := ProcessSummary(content, marker);
    ProcessSummaryShape(content, marker);
    FindIsFirstOccurrence(content, marker);
    assert content[|prefix|..|prefix| + |marker|] == rest[..|marker|];
    assert OccursAt(content, marker, |prefix|);
    assert OccursAt(content, marker, |content| - |kept|) by {
      assert content[|content| - |kept|..][..|marker|] == kept[..|marker|];
    }
    assert |kept| == |rest|;
    assert kept == content[|prefix|..] == rest;
  }

  /** Extraction is idempotent. */
  lemma ProcessSummaryIdempotent(summary: string, cutFrom: string)
    ensures ProcessSummary(ProcessSummary(summary, cutFrom), cutFrom) == ProcessSummary(summary, cutFrom)
  {
    var r := ProcessSummary(summary, cutFrom);
    ProcessSummaryShape(summary, cutFrom);
    if Find(summary, cutFrom) >= 0 {
      ProcessSummaryKeepsMarkedReply(r, cutFrom);
    }
  }

  /** A reply that already starts with the marker is kept whole, as in the
      test suite's `generate_summary` case. */
  lemma ProcessSummaryKeepsMarkedReply(summary: string, cutFrom: string)
    requires cutFrom <= summary
    ensures ProcessSummary(summary, cutFrom) == summary
  {
    assert summary[..|cutFrom|] == cutFrom;
  }

  const SubjectMarker := "Subject:"
  const BulletMarker := "-"

  /** The summary after one completion: an initial call keeps the reply from
      "Subject:" on; a continuation (a non-empty previous summary) appends
      the reply from its first "-" on, after a newline. */
  function Merge(previousSummary: Option<string>, content: string): string
  {
    if previousSummary.Some? && previousSummary.value != "" then
      previousSummary.value + "\n" + ProcessSummary(content, BulletMarker)
    else ProcessSummary(content, SubjectMarker)
  }

  /** An initial merge is the reply from its first "Subject:" on, or the
      whole reply without one; a continuation is the previous summary, a
      newline, and the reply from its first "-" on, or the whole reply
      without one. */
  lemma MergeShape(previousSummary: Option<string>, content: string)
    ensures var r := Merge(previousSummary, content);
      (previousSummary.None? || previousSummary.value == "") ==>
        r == ProcessSummary(content, SubjectMarker) && KeptFromFirst(r, content, SubjectMarker)
    ensures var r := Merge(previousSummary, content);
      previousSummary.Some? && previousSummary.value != "" ==>
        && previousSummary.value + "\n" <= r
        && r[|previousSummary.value| + 1..] == ProcessSummary(content, BulletMarker)
        && KeptFromFirst(r[|previousSummary.value| + 1..], content, BulletMarker)
  {
    if previousSummary.Some? && previousSummary.value != "" {
      var r := Merge(previousSummary, content);
      ProcessSummaryShape(content, BulletMarker);
      assert r[|previousSummary.value| + 1..] == ProcessSummary(content, BulletMarker);
    } else {
      ProcessSummaryShape(content, SubjectMarker);
    }
  }

  /** A continuation keeps the previous summary and a newline in front. */
  lemma MergeKeepsPrevious(previous: string, content: string)
    requires previous != ""
    ensures previous + "\n" <= Merge(Some(previous), content)
  {
    var kept := ProcessSummary(content, BulletMarker);
    assert (previous + "\n" + kept)[..|previous| + 1] == previous + "\n";
  }

  /** An empty previous summary selects the continuation template (the
      `is None` test) but is merged like an initial call (the truthiness
      test). */
  lemma EmptyPreviousSummaryQuirk(text: string, wordsLimit: Option<int>, content: string)
    ensures RecursiveIntro <= UserMessage(text, wordsLimit, Some(""))
    ensures Merge(Some(""), content) == ProcessSummary(content, SubjectMarker)
  {
    UserMessageShape(text, wordsLimit, Some(""));
  }

  // ---------------------------------------------------------------------
  // The recursive chain (`generate_summary`).

  const SystemPrompt := "You are a helpful assistant that generates summaries of texts extracted from PDF files or webpages."

  datatype SummarizerConfig = SummarizerConfig(allowGpt4: bool, allowRecursion: bool)

  /** Every call: upgrade as configured, never drop history, truncate. */
  function SummaryStrategies(cfg: SummarizerConfig): (s: Strategies)
    ensures !s.allowMessageRemoval && s.allowMessageTruncation && s.allowModelUpgrade == cfg.allowGpt4
  {
    Strategies(cfg.allowGpt4, false, true)
  }

  datatype SummaryError = FitFailed(error: FitError) | OutOfFuel

  datatype SummaryRun = SummaryRun(result: Result<string, SummaryError>, state: ConversationState)

  /** What one `generate_summary` call asks for. */
  datatype SummaryRequest = SummaryRequest(text: string, wordsLimit: Option<int>, previousSummary: Option<string>)

  /** One completion of a summary chain: a conversation state and a request
      in, the exchange out. */
  type SummaryStep = (ConversationState, SummaryRequest) -> Exchange

  /** `step` is `get_completion` on the templated user message, with the
      summarizer's system prompt and the given strategies. */
  ghost predicate IsStepWith(step: SummaryStep, tok: Tokenizer, strategies: Strategies, temperature: real,
                             complete: CompletionOracle)
  {
    forall st: ConversationState, request: SummaryRequest
      {:trigger Complete(tok, st, UserMessage(request.text, request.wordsLimit, request.previousSummary), temperature,
                         strategies, Some(SystemPrompt), complete)} ::
      step(st, request)
        == Complete(tok, st, UserMessage(request.text, request.wordsLimit, request.previousSummary), temperature,
                    strategies, Some(SystemPrompt), complete)
  }

  /** `step` is the one `generate_summary` takes. */
  ghost predicate IsConversationStep(step: SummaryStep, tok: Tokenizer, cfg: SummarizerConfig, temperature: real,
                                     complete: CompletionOracle)
  {
    IsStepWith(step, tok, SummaryStrategies(cfg), temperature, complete)
  }

  /** `generate_summary` over a step. `fuel` bounds the number of recursive
      calls; the chain fails with `OutOfFuel` when it would need more. */
  function Summarize(step: SummaryStep, allowRecursion: bool, st: ConversationState, text: string,
                     wordsLimit: Option<int>, previousSummary: Option<string>, fuel: nat): (run: SummaryRun)
    decreases fuel
  {
    var x := step(st, SummaryRequest(text, wordsLimit, previousSummary));
    match x.response
    case Err(e) => SummaryRun(Err(FitFailed(e)), x.state)
    case Ok(response) =>
      var summary := Merge(previousSummary, response.content);
      if response.cutPrompt != "" && allowRecursion then
        if fuel == 0 then SummaryRun(Err(OutOfFuel), x.state)
        else Summarize(step, allowRecursion, x.state, response.cutPrompt, wordsLimit, Some(summary), fuel - 1)
      else SummaryRun(Ok(summary), x.state)
  }

  /** One step of `Summarize`, for the exchange `x` its first completion
      produced: a failed completion ends the run with the fitting error; a
      reply without a cut, or with recursion off, is merged and returned
      after exactly one completion; otherwise the chain goes on with the cut
      tail and the merged summary, or runs out of fuel. */
  lemma SummarizeUnfold(step: SummaryStep, allowRecursion: bool, st: ConversationState, text: string,
                        wordsLimit: Option<int>, previousSummary: Option<string>, fuel: nat, x: Exchange)
    requires x == step(st, SummaryRequest(text, wordsLimit, previousSummary))
    ensures x.response.Err? ==>
      Summarize(step, allowRecursion, st, text, wordsLimit, previousSummary, fuel) == SummaryRun(Err(FitFailed(x.response.error)), x.state)
    ensures x.response.Ok? && (x.response.value.cutPrompt == "" || !allowRecursion) ==>
      Summarize(step, allowRecursion, st, text, wordsLimit, previousSummary, fuel)
        == SummaryRun(Ok(Merge(previousSummary, x.response.value.content)), x.state)
    ensures x.response.Ok? && x.response.value.cutPrompt != "" && allowRecursion && fuel == 0 ==>
      Summarize(step, allowRecursion, st, text, wordsLimit, previousSummary, fuel) == SummaryRun(Err(OutOfFuel), x.state)
    ensures x.response.Ok? && x.response.value.cutPrompt != "" && allowRecursion && fuel > 0 ==>
      Summarize(step, allowRecursion, st, text, wordsLimit, previousSummary, fuel)
        == Summarize(step, allowRecursion, x.state, x.response.value.cutPrompt, wordsLimit,
                     Some(Merge(previousSummary, x.response.value.content)), fuel - 1)
  {
  }

  /** A non-empty previous summary is a prefix of the returned summary. */
  lemma {:induction false} SummaryExtendsPrevious(step: SummaryStep, allowRecursion: bool, st: ConversationState, text: string,
                                                  wordsLimit: Option<int>, previous: string, fuel: nat)
    requires previous != ""
    ensures var run := Summarize(step, allowRecursion, st, text, wordsLimit, Some(previous), fuel);
      run.result.Ok? ==> previous + "\n" <= run.result.value
    decreases fuel
  {
    var x := step(st, SummaryRequest(text, wordsLimit, Some(previous)));
    if x.response.Ok? {
      var summary := Merge(Some(previous), x.response.value.content);
      MergeKeepsPrevious(previous, x.response.value.content);
      if x.response.value.cutPrompt != "" && allowRecursion && fuel > 0 {
        SummaryExtendsPrevious(step, allowRecursion, x.state, x.response.value.cutPrompt, wordsLimit, summary, fuel - 1);
        var run := Summarize(step, allowRecursion, x.state, x.response.value.cutPrompt, wordsLimit, Some(summary), fuel - 1);
        if run.result.Ok? {
          PrefixTransitive(summary, summary + "\n", run.result.value);
          PrefixTransitive(previous + "\n", summary, run.result.value);
        }
      }
    }
  }

  lemma PrefixTransitive(a: string, b: string, c: string)
    requires a <= b && b <= c
    ensures a <= c
  {
    assert c[..|a|] == b[..|a|];
  }

  /** A step that sets the system prompt, only appends to the history, and
      appends exactly one exchange when it succeeds. */
  ghost predicate AppendsOneExchange(step: SummaryStep)
  {
    forall st: ConversationState, message: SummaryRequest ::
      && step(st, message).state.systemPrompt == SystemPrompt
      && st.history <= step(st, message).state.history
      && (step(st, message).response.Ok? ==> |step(st, message).state.history| == |st.history| + 2)
  }

  /** A step after which, once a prompt had to be cut, the next step fails. */
  ghost predicate CutEndsChain(step: SummaryStep)
  {
    forall st: ConversationState, message: SummaryRequest, next: SummaryRequest ::
      step(st, message).response.Ok? && step(st, message).response.value.cutPrompt != "" ==>
        step(step(st, message).state, next).response.Err?
  }

  lemma ConversationStepAppendsOneExchange(step: SummaryStep, tok: Tokenizer, cfg: SummarizerConfig, temperature: real,
                                           complete: CompletionOracle)
    requires IsConversationStep(step, tok, cfg, temperature, complete)
    ensures AppendsOneExchange(step)
  {
    forall st: ConversationState, request: SummaryRequest
      ensures && step(st, request).state.systemPrompt == SystemPrompt
              && st.history <= step(st, request).state.history
              && (step(st, request).response.Ok? ==> |step(st, request).state.history| == |st.history| + 2)
    {
      var message := UserMessage(request.text, request.wordsLimit, request.previousSummary);
      var x := Complete(tok, st, message, temperature, SummaryStrategies(cfg), Some(SystemPrompt), complete);
      assert step(st, request) == x;
    }
  }

  /** After a completion whose prompt had to be cut, the summarizer's next
      completion on the same conversation always overflows: the history now
      holds the uncut user message, removal is off, and the prompt has more
      than two messages, so no strategy applies. */
  lemma SecondChunkRejected(tok: Tokenizer, st: ConversationState, cfg: SummarizerConfig,
                            message: string, nextMessage: string, temperature: real, complete: CompletionOracle)
    requires var x := Complete(tok, st, message, temperature, SummaryStrategies(cfg), Some(SystemPrompt), complete);
      x.response.Ok? && x.response.value.cutPrompt != ""
    ensures var x := Complete(tok, st, message, temperature, SummaryStrategies(cfg), Some(SystemPrompt), complete);
      Complete(tok, x.state, nextMessage, temperature, SummaryStrategies(cfg), Some(SystemPrompt), complete).response
        == Err(PromptTooLong(TokenLimit(x.state.model)))
  {
    CompleteAfterCutRejects(tok, st, message, nextMessage, temperature, SummaryStrategies(cfg), Some(SystemPrompt), complete);
  }

  lemma ConversationStepCutEndsChain(step: SummaryStep, tok: Tokenizer, cfg: SummarizerConfig, temperature: real,
                                      complete: CompletionOracle)
    requires IsConversationStep(step, tok, cfg, temperature, complete)
    ensures CutEndsChain(step)
  {
    forall st: ConversationState, message: SummaryRequest, next: SummaryRequest |
      step(st, message).response.Ok? && step(st, message).response.value.cutPrompt != ""
      ensures step(step(st, message).state, next).response.Err?
    {
      var strategies := SummaryStrategies(cfg);
      var first := UserMessage(message.text, message.wordsLimit, message.previousSummary);
      var x := Complete(tok, st, first, temperature, strategies, Some(SystemPrompt), complete);
      assert step(st, message) == x;
      var second := UserMessage(next.text, next.wordsLimit, next.previousSummary);
      assert step(x.state, next) == Complete(tok, x.state, second, temperature, strategies, Some(SystemPrompt), complete);
      SecondChunkRejected(tok, st, cfg, first, second, temperature, complete);
    }
  }

  /** For a step that ends the chain after a cut, a summary chain never
      completes more than one chunk: when the first completion's prompt was
      cut and recursion is on, the run fails; so every successful run made
      exactly one completion. */
  lemma SummarizeCompletesOneChunk(step: SummaryStep, allowRecursion: bool, st: ConversationState, text: string,
                                   wordsLimit: Option<int>, previousSummary: Option<string>, fuel: nat)
    requires AppendsOneExchange(step) && CutEndsChain(step)
    ensures var x := step(st, SummaryRequest(text, wordsLimit, previousSummary));
      x.response.Ok? && x.response.value.cutPrompt != "" && allowRecursion ==>
        Summarize(step, allowRecursion, st, text, wordsLimit, previousSummary, fuel).result.Err?
    ensures var run := Summarize(step, allowRecursion, st, text, wordsLimit, previousSummary, fuel);
      run.result.Ok? ==> |run.state.history| == |st.history| + 2
  {
    var x := step(st, SummaryRequest(text, wordsLimit, previousSummary));
    if x.response.Ok? && x.response.value.cutPrompt != "" && allowRecursion && fuel > 0 {
      var summary := Merge(previousSummary, x.response.value.content);
      var next := SummaryRequest(x.response.value.cutPrompt, wordsLimit, Some(summary));
      assert step(x.state, next).response.Err?;
    }
  }

  /** The system prompt is `SYSTEM_PROMPT` after a chain, and the history
      only grows. */
  lemma {:induction false} SummarizeKeepsHistory(step: SummaryStep, allowRecursion: bool, st: ConversationState, text: string,
                                                 wordsLimit: Option<int>, previousSummary: Option<string>, fuel: nat)
    requires AppendsOneExchange(step)
    ensures var run := Summarize(step, allowRecursion, st, text, wordsLimit, previousSummary, fuel);
      run.state.systemPrompt == SystemPrompt && st.history <= run.state.history
    decreases fuel
  {
    var x := step(st, SummaryRequest(text, wordsLimit, previousSummary));
    if x.response.Ok? && x.response.value.cutPrompt != "" && allowRecursion && fuel > 0 {
      var summary := Merge(previousSummary, x.response.value.content);
      SummarizeKeepsHistory(step, allowRecursion, x.state, x.response.value.cutPrompt, wordsLimit, Some(summary), fuel - 1);
    }
  }

  /** The summarizer on a conversation, as written: every successful run
      made exactly one completion, i.e. added exactly one exchange to the
      history, however long the text and whatever the fuel. */
  lemma SummarizerCompletesOneChunk(step: SummaryStep, tok: Tokenizer, cfg: SummarizerConfig, temperature: real,
                                    complete: CompletionOracle, st: ConversationState, text: string,
                                    wordsLimit: Option<int>, previousSummary: Option<string>, fuel: nat)
    requires IsConversationStep(step, tok, cfg, temperature, complete)
    ensures var run := Summarize(step, cfg.allowRecursion, st, text, wordsLimit, previousSummary, fuel);
      run.result.Ok? ==> |run.state.history| == |st.history| + 2
  {
    ConversationStepAppendsOneExchange(step, tok, cfg, temperature, complete);
    ConversationStepCutEndsChain(step, tok, cfg, temperature, complete);
    SummarizeCompletesOneChunk(step, cfg.allowRecursion, st, text, wordsLimit, previousSummary, fuel);
  }

  // ---------------------------------------------------------------------
  // The chain with message removal allowed.

  /** The strategies that let the chain go on after a cut: as
      `SummaryStrategies`, but dropping old messages is allowed, so the
      uncut earlier messages no longer block the next prompt. */
  function CorrectedSummaryStrategies(cfg: SummarizerConfig): (s: Strategies)
    ensures s.allowMessageRemoval && s.allowMessageTruncation && s.allowModelUpgrade == cfg.allowGpt4
    ensures s == SummaryStrategies(cfg).(allowMessageRemoval := true)
  {
    Strategies(cfg.allowGpt4, true, true)
  }

  /** A step whose completions never fail. */
  ghost predicate NeverRejects(step: SummaryStep)
  {
    forall st: ConversationState, request: SummaryRequest :: step(st, request).response.Ok?
  }

  /** With removal allowed and a system prompt that fits GPT-3.5's limit,
      no completion of the chain fails, whatever the history holds. */
  lemma CorrectedStepNeverRejects(step: SummaryStep, tok: Tokenizer, cfg: SummarizerConfig, temperature: real,
                                  complete: CompletionOracle)
    requires IsStepWith(step, tok, CorrectedSummaryStrategies(cfg), temperature, complete)
    requires Count(tok, SystemPrompt) <= TokenLimit(GPT_3_5)
    ensures NeverRejects(step)
  {
    forall st: ConversationState, request: SummaryRequest
      ensures step(st, request).response.Ok?
    {
      var message := UserMessage(request.text, request.wordsLimit, request.previousSummary);
      var strategies := CorrectedSummaryStrategies(cfg);
      assert step(st, request) == Complete(tok, st, message, temperature, strategies, Some(SystemPrompt), complete);
      CompleteSucceedsWithRemovalAndTruncation(tok, st, message, temperature, strategies, Some(SystemPrompt), complete);
    }
  }

  /** A chain over a step that never fails ends with a summary, or runs out
      of fuel; it never ends with a fitting error. */
  lemma {:induction false} SummarizeWithoutRejection(step: SummaryStep, allowRecursion: bool, st: ConversationState,
                                                     text: string, wordsLimit: Option<int>,
                                                     previousSummary: Option<string>, fuel: nat)
    requires NeverRejects(step)
    ensures var run := Summarize(step, allowRecursion, st, text, wordsLimit, previousSummary, fuel);
      run.result.Ok? || run.result == Err(OutOfFuel)
    decreases fuel
  {
    var x := step(st, SummaryRequest(text, wordsLimit, previousSummary));
    assert x.response.Ok?;
    if x.response.value.cutPrompt != "" && allowRecursion && fuel > 0 {
      var summary := Merge(previousSummary, x.response.value.content);
      SummarizeWithoutRejection(step, allowRecursion, x.state, x.response.value.cutPrompt, wordsLimit, Some(summary), fuel - 1);
    }
  }

  /** The corrected summarizer on a conversation: after a first completion
      whose prompt was cut, the next chunk's completion succeeds (where the
      code as written fails, `SecondChunkRejected`), and the chain ends with
      a summary unless it runs out of fuel. */
  lemma CorrectedSummarizerContinues(step: SummaryStep, tok: Tokenizer, cfg: SummarizerConfig, temperature: real,
                                     complete: CompletionOracle, st: ConversationState, text: string,
                                     wordsLimit: Option<int>, previousSummary: Option<string>, fuel: nat,
                                     next: SummaryRequest)
    requires IsStepWith(step, tok, CorrectedSummaryStrategies(cfg), temperature, complete)
    requires Count(tok, SystemPrompt) <= TokenLimit(GPT_3_5)
    ensures var x := step(st, SummaryRequest(text, wordsLimit, previousSummary));
      x.response.Ok? && step(x.state, next).response.Ok?
    ensures var run := Summarize(step, cfg.allowRecursion, st, text, wordsLimit, previousSummary, fuel);
      run.result.Ok? || run.result == Err(OutOfFuel)
  {
    CorrectedStepNeverRejects(step, tok, cfg, temperature, complete);
    var x := step(st, SummaryRequest(text, wordsLimit, previousSummary));
    assert step(x.state, next).response.Ok?;
    SummarizeWithoutRejection(step, cfg.allowRecursion, st, text, wordsLimit, previousSummary, fuel);
  }

  /** `Summarizer`: its fields are set once, and `GenerateSummary` drives
      the conversation it was given. */
  class Summarizer {
    const conversation: OpenAIConversation
    const allowGpt4: bool
    const allowRecursion: bool

    constructor (conversation: OpenAIConversation, allowGpt4: bool, allowRecursion: bool)
      ensures this.conversation == conversation && this.allowGpt4 == allowGpt4 && this.allowRecursion == allowRecursion
    {
      this.conversation := conversation;
      this.allowGpt4 := allowGpt4;
      this.allowRecursion := allowRecursion;
    }

    /** One completion of the chain: the templated user message sent through
        the conversation, with the summarizer's system prompt and strategies. */
    method Ask(ghost step: SummaryStep, request: SummaryRequest, temperature: real, complete: CompletionOracle)
      returns (response: Result<ChatResponse, FitError>)
      requires conversation.Valid()
      requires IsConversationStep(step, conversation.tok, SummarizerConfig(allowGpt4, allowRecursion), temperature, complete)
      modifies conversation
      ensures conversation.Valid()
      ensures Exchange(response, conversation.State()) == step(old(conversation.State()), request)
    {
      var userMessage := UserMessage(request.text, request.wordsLimit, request.previousSummary);
      response := conversation.GetCompletion(userMessage, temperature, SummaryStrategies(SummarizerConfig(allowGpt4, allowRecursion)),
                                             Some(SystemPrompt), complete);
    }

    /** `generate_summary`: the chain `Summarize` describes, run on the
        conversation; `step` names the conversation's completion. */
    method GenerateSummary(ghost step: SummaryStep, text: string, wordsLimit: Option<int>, temperature: real,
                           previousSummary: Option<string>, complete: CompletionOracle, fuel: nat)
      returns (r: Result<string, SummaryError>)
      requires conversation.Valid()
      requires IsConversationStep(step, conversation.tok, SummarizerConfig(allowGpt4, allowRecursion), temperature, complete)
      modifies conversation
      ensures conversation.Valid()
      ensures SummaryRun(r, conversation.State()) ==
        Summarize(step, allowRecursion, old(conversation.State()), text, wordsLimit, previousSummary, fuel)
      decreases fuel
    {
      ghost var st := conversation.State();
      var response := Ask(step, SummaryRequest(text, wordsLimit, previousSummary), temperature, complete);
      SummarizeUnfold(step, allowRecursion, st, text, wordsLimit, previousSummary, fuel, Exchange(response, conversation.State()));
      if response.Err? {
        return Err(FitFailed(response.error));
      }
      var summary := Merge(previousSummary, response.value.content);
      if response.value.cutPrompt != "" && allowRecursion {
        if fuel == 0 {
          return Err(OutOfFuel);
        }
        r := GenerateSummary(step, response.value.cutPrompt, wordsLimit, temperature, Some(summary), complete, fuel - 1);
        return;
      }
      return Ok(summary);
    }
  }
}

=== FILE: tokens.dfy ===
/** The token counter of bot/modules/openai_conversation.py (tiktoken's
    `cl100k_base` encoding), kept abstract: a tokenizer is a pair of total
    functions, and the two facts the budgeter relies on are predicates that
    the lemmas needing them require. */
module Tokens {

  type Token = nat

  datatype Tokenizer = Tokenizer(encode: string -> seq<Token>, decode: seq<Token> -> string)

  /** `get_text_token_length`: the number of tokens `text` encodes to. */
  function Count(tok: Tokenizer, text: string): nat
  {
    |tok.encode(text)|
  }

  /** Decoding the first `k` tokens of an encoding gives back a string
      prefix of the encoded text. */
  ghost predicate DecodesToPrefixes(tok: Tokenizer)
  {
    forall s: string, k: nat :: k <= |tok.encode(s)| ==> tok.decode(tok.encode(s)[..k]) <= s
  }

  /** Re-encoding the decoding of the first `k` tokens of an encoding takes
      at most `k` tokens. */
  ghost predicate ReencodeBound(tok: Tokenizer)
  {
    forall s: string, k: nat :: k <= |tok.encode(s)| ==> Count(tok, tok.decode(tok.encode(s)[..k])) <= k
  }

  /** A text split into the part that is kept and the tail that was cut. */
  datatype Split = Split(kept: string, cut: string)

  /** The truncation step of `preprocess_prompt`: keep the decoding of the
      first `budget` tokens, and cut the text from the kept part's length
      on (Python's `content[len(kept):]`, empty when `kept` is longer). */
  function TruncateToTokens(tok: Tokenizer, content: string, budget: nat): (r: Split)
    ensures |r.cut| <= |content| && r.cut == content[|content| - |r.cut|..]
  {
    var tokens := tok.encode(content);
    var kept := tok.decode(tokens[..if budget <= |tokens| then budget else |tokens|]);
    Split(kept, content[if |kept| <= |content| then |kept| else |content|..])
  }

  /** With a prefix-decoding tokenizer the split loses nothing. */
  lemma TruncateIsLossless(tok: Tokenizer, content: string, budget: nat)
    requires DecodesToPrefixes(tok)
    ensures TruncateToTokens(tok, content, budget).kept + TruncateToTokens(tok, content, budget).cut == content
  {
    var tokens := tok.encode(content);
    var k := if budget <= |tokens| then budget else |tokens|;
    assert tok.decode(tokens[..k]) <= content;
  }

  /** The kept part fits the token budget. */
  lemma TruncateFitsBudget(tok: Tokenizer, content: string, budget: nat)
    requires ReencodeBound(tok)
    ensures Count(tok, TruncateToTokens(tok, content, budget).kept) <= budget
  {
    var tokens := tok.encode(content);
    var k := if budget <= |tokens| then budget else |tokens|;
    assert Count(tok, tok.decode(tokens[..k])) <= k;
  }
}
